=== FILE: README.md ===
# Bulk mailer dispatch core, modelled in Dafny

This project models the dispatch core of the WordPress multi-SMTP bulk mailer
(`Bulk-Mailer.php`):

- **Account choice.** `pick_smtp` chooses an SMTP account for each recipient, either round-robin or at random.
- **Daily limits.** Inside `process_bulk_send`, the per-account daily limit is checked against the log. An exhausted account triggers a fallback search over the pool.
- **The recipient loop.** It processes at most three recipients in test mode and all of them otherwise. It builds each send's headers, adding a `From` line when a sender override is given. It writes exactly one log row per processed recipient and keeps the `sent`/`failed` counters.
- **Header parsing.** `parse_headers` reads the extra-headers text area.
- **Logging.** `log_mail` appends rows that later quota checks read back.

The model is functional: every concept is an immutable datatype, and every operation is a pure function.

- The `logs` table is a `seq<LogRow>`.
- The quota query `COUNT(*) ... WHERE smtp_id = id AND DATE(sent_at) = day` is `MailLog.CountOn`.
- The `for` loop is the recursive `Dispatch.Run` over the number of recipients handled. `Run` unfolds to `After`, and `After` to `Iterate`, which runs one `Step` from the state `Run` reached. The proofs about a whole run never unfold the body of the iteration.

The collaborators the code calls but does not define are parameters of a run (`Dispatch.Env`):

- the two clock readings;
- the values of `array_rand`, as `Quota.Draws`;
- `is_email`;
- `wp_mail`, as an answer for each recipient index and mail.

The account that the `phpmailer_init` hook would configure travels inside the `Mail` value. The code keeps it in the static `$current_smtp` instead.

Modules, in dependency order:

- `Options`: `Option`.
- `Text`: PHP truthiness, `trim`, line splitting, `parse_headers`, and the `Name <email>` mailbox format.
- `Accounts`: accounts, `pick_smtp` with its round-robin cycle and fairness, and pool selection.
- `MailLog`: log rows, `log_mail`, and the daily count.
- `Quota`: the limit test and the fallback search.
- `Dispatch`: one iteration, the run, and the whole bulk send. The bulk send parses the rotation field, selects the pool from the account table and the submitted ids, and then runs.
- `Properties`: theorems about whole runs, and the date finding below.

## Model

| member | source | states |
|---|---|---|
| Text.Trim | Bulk-Mailer.php:429-430 | The result has no PHP whitespace at either end and is no longer than the input. |
| Text.TrimPadded | Bulk-Mailer.php:429-430 | Trimming a trimmed text padded with whitespace on both sides gives that text back, so `trim` removes exactly the padding. |
| Text.TrimIdempotent | Bulk-Mailer.php:429-430 | Trimming twice is trimming once. |
| Text.TrimSpacePrefix | Bulk-Mailer.php:429 | Whitespace put in front of a text does not change its trim. |
| Text.TrimSpaceSuffix | Bulk-Mailer.php:429 | Whitespace put after a text does not change its trim. |
| Text.SplitLines | Bulk-Mailer.php:429 | The split yields at least one piece, no piece holds a line feed, and joining the pieces with line feeds gives the text back. |
| Text.SplitJoin | Bulk-Mailer.php:429 | Splitting joined newline-free lines yields exactly those lines. |
| Text.SplitConcat | Bulk-Mailer.php:429 | Splitting two texts written one after the other gives the lines of the first and then those of the second, with the first's last line and the second's first line joined into one. |
| Text.KeepHeaderLines | Bulk-Mailer.php:430 | Every kept line is trimmed and true in PHP's sense, and no more lines come out than went in. |
| Text.KeepHeaderLinesMembers | Bulk-Mailer.php:430 | A header is kept exactly when it is the trim of some input line and that trim is true, so blank lines and lines reading `0` are the ones dropped. |
| Text.KeepHeaderLinesBlank | Bulk-Mailer.php:430 | Lines made only of whitespace are all dropped. |
| Text.KeepHeaderLinesAppend | Bulk-Mailer.php:430 | Filtering a concatenation is the concatenation of the filtered parts, so kept lines keep their original order. |
| Text.KeepHeaderLinesIdentity | Bulk-Mailer.php:430 | Lines that are already trimmed, true and single-line all pass the filter, unchanged and in order. |
| Text.ParseHeaders | Bulk-Mailer.php:427-432 | Every parsed header is trimmed, true in PHP's sense, and a single line. The result equals filtering the lines of the untrimmed text, so the outer `trim` changes nothing. |
| Text.ParseHeadersOuterTrim | Bulk-Mailer.php:429-430 | Filtering the lines of the trimmed text keeps the same headers as filtering the lines of the raw text: the padding the outer `trim` removes only ever forms blank lines or blank line ends. |
| Text.ParseHeadersMembers | Bulk-Mailer.php:427-432 | For any text, a header is parsed exactly when it is the true trim of one of the text's lines. |
| Text.ParseHeadersRoundTrip | Bulk-Mailer.php:427-432 | Writing any list of valid header lines one per line and parsing the text gives exactly that list back. |
| Text.MailboxRoundTrip | Bulk-Mailer.php:510 | `Text.Mailbox` builds the mailbox that lines 510 and 517 format: `Name <email>` when the name is true, the bare address otherwise. From `Name <email>`, or the bare address when the name is false, both the address and the display name can be read back, for any address without angle brackets. The mailbox has angle brackets exactly when the name is true. |
| Text.BareMailbox | Bulk-Mailer.php:510 | A mailbox without angle brackets that reads back an address is that address itself, with no display name: the false-name `From` value and the nameless `To` are the bare address. |
| Text.FromHeader | Bulk-Mailer.php:510 | The line starts with `From: `, and its mailbox yields the sender address and the sender name when it is true. When the name is false the mailbox has no angle brackets, so with `Text.BareMailbox` the line is `From: ` followed by the address alone. |
| Accounts.ParseRotation | Bulk-Mailer.php:447 | The mode is random exactly when the field is the string `random`; anything else, or a missing field, is round-robin. |
| Accounts.Pick | Bulk-Mailer.php:434-438 | There is no account exactly when the pool is empty, and any account returned is a pool member. |
| Accounts.RandomReachesEveryAccount | Bulk-Mailer.php:436 | In random mode every pool position is picked for some value of the draw. |
| Accounts.RoundRobinPicks | Bulk-Mailer.php:437 | The `k`-th of the first `m` round-robin picks is `pick_smtp` at index `k`. |
| Accounts.RoundRobinCycles | Bulk-Mailer.php:437 | The first `k` times the pool size round-robin picks are the pool repeated `k` times, in pool order. |
| Accounts.RoundRobinFair | Bulk-Mailer.php:437 | Over `k` full cycles each account is picked `k` times as often as it occurs in the pool. |
| Accounts.FindAccount | Bulk-Mailer.php:131-134 | The account found has the requested id and is in the table; no account means no row has that id. |
| Accounts.ActiveAccounts | Bulk-Mailer.php:125-129 | An account is listed exactly when it is in the table and active. |
| Accounts.ActiveAccountsAppend | Bulk-Mailer.php:127 | Listing the active rows of two table pieces gives the first piece's active rows followed by the second's, so the listing keeps table order and every row once. |
| Accounts.ActiveAccountsSorted | Bulk-Mailer.php:127 | When the table is read in increasing id order, so are its active rows. |
| Accounts.ChosenAccounts | Bulk-Mailer.php:453 | Every chosen account is an active table row whose id was selected, and there are no more of them than selected ids. |
| Accounts.ChosenAccountsAppend | Bulk-Mailer.php:453 | Choosing for two id lists one after the other gives the accounts of the first list followed by those of the second. |
| Accounts.ChosenAccountsInOrder | Bulk-Mailer.php:453 | When every selected id names an active row, the pool has one account per selected id, in the order the ids were given, and a repeated id puts its account in twice. |
| Accounts.ChosenAccountsComplete | Bulk-Mailer.php:453 | Every active account whose id is selected is chosen, for a table with one row per id. |
| Accounts.SelectPool | Bulk-Mailer.php:450-456 | The pool holds only active table rows: with no selection it holds exactly the active accounts, otherwise only selected ones. When the table has one row per id, so does the pool. |
| Accounts.SelectPoolSorted | Bulk-Mailer.php:455 | With no selection the pool is in increasing id order, like the table it is read from. |
| Accounts.SelectPoolComplete | Bulk-Mailer.php:450-456 | Every active account that was selected lands in the pool, for a table with one row per id. |
| MailLog.LogMail | Bulk-Mailer.php:152-163 | One row is appended after the existing rows, stamped with the current day and carrying the entry's recipient, subject, account, status, error and message id. |
| MailLog.CountOn | Bulk-Mailer.php:483 | The daily count never exceeds the number of rows. |
| MailLog.CountConcat | Bulk-Mailer.php:483 | Counting a log in two pieces and adding gives the count of the whole log. |
| MailLog.CountAfterLogMail | Bulk-Mailer.php:152-163 | Each `log_mail` raises by one the count of exactly the account it names on exactly the day it stamps, and leaves every other count alone. |
| Quota.Candidate | Bulk-Mailer.php:476 | Probe `t` for recipient `i` is `pick_smtp` at index `i + t`, and it is always a pool member. |
| Quota.Search | Bulk-Mailer.php:479-492 | The probe found is at most the pool size and its account is not exhausted; every probe before it, or every probe when none is found, hit an exhausted account. |
| Quota.Assign | Bulk-Mailer.php:476-493 | An assigned account is a pool member within its daily limit. It is the first pick whenever that one is not exhausted, and otherwise the first fallback probe that is not, every probe before it being exhausted. No assignment means the first pick and all the fallback probes (one per pool account) were exhausted. |
| Dispatch.ProcessLimit | Bulk-Mailer.php:467 | A run processes all recipients outside test mode, and `min(3, count)` in test mode. |
| Dispatch.SenderAddress | Bulk-Mailer.php:470-472 | The override is kept or blanked: a true address survives only if `is_email` accepts it, and a valid or false one is kept as it is. |
| Dispatch.SendHeaders | Bulk-Mailer.php:507-512 | The parsed headers come first and unchanged. Exactly one `From: ` line follows when the sender address is true, from which that address reads back, and the name too when it is true. With a false name its mailbox has no angle brackets, so it is the bare address. Nothing is added otherwise. |
| Dispatch.Prepare | Bulk-Mailer.php:442-472 | The run is random exactly when the rotation field reads `random`. Its headers start with the parsed header text, and hold one more line exactly when the sender address is true and accepted by `is_email`. That line starts with `From: ` and reads back the address, and the name when it is true; with a false name it carries the bare address. |
| Dispatch.Compose | Bulk-Mailer.php:517-518 | The mail goes to `Name <email>` when the recipient has a name, so its address and name can be read back. Without a name the `To` value has no angle brackets, so it is the bare address. The mail carries the run's subject, message and headers through the chosen account. |
| Dispatch.Deliver | Bulk-Mailer.php:493-535 | Exactly one row is appended for the recipient, with its address, the subject and the stamp day; it names the picked account or none, and the counters and transport calls move with its status. |
| Dispatch.DeliverOutcome | Bulk-Mailer.php:526-535 | Without an account the row is the exhaustion failure and no mail is sent. With one, the mail goes out through it and the status and error follow the transport's answer. |
| Dispatch.Step | Bulk-Mailer.php:474-539 | One iteration appends exactly one row, for the recipient at hand, and moves exactly one counter. |
| Dispatch.StepOutcome | Bulk-Mailer.php:476-535 | The row names no account exactly when the fallback search fails; otherwise it names the account actually used, which is a pool member within its limit, and the status follows `wp_mail`. |
| Dispatch.Run | Bulk-Mailer.php:474-539 | After `n` recipients the log has grown by exactly `n` rows, and `sent + failed == n`. |
| Dispatch.RunKeepsLog | Bulk-Mailer.php:152-163 | A run only appends: the rows present before it are kept unchanged. |
| Dispatch.RunRowsInOrder | Bulk-Mailer.php:474-535 | Row `k` of a run is recipient `k`'s row, carrying the run's subject and stamp day. |
| Dispatch.RecordedRows | Bulk-Mailer.php:528-535 | Spelled out: each row names its recipient's address, the subject and the stamp day. |
| Dispatch.RunCounters | Bulk-Mailer.php:468-539 | `sent` is the number of the run's rows marked sent, `failed` the number marked failed, and the mails sent number the rows that name an account. |
| Dispatch.Campaign | Bulk-Mailer.php:440-545 | The pool is selected from the account table by the submitted ids. Missing recipients, subject or message, or an empty pool, return before the loop with the log untouched and nothing sent. Otherwise the run processes exactly the limit, in recipient order, with counters that match the rows it appends. |
| Properties.RunQuotaCap | Bulk-Mailer.php:479-491 | When rows are stamped with the day the quota counts, no limited account's count rises above its limit during a run, and one already above it gains nothing. This holds for any pool whose entries with one id are one row, repeats included. |
| Properties.CampaignQuotaCap | Bulk-Mailer.php:479-491 | The same cap holds for a whole bulk send, for every limited account of the pool selected from the table, whenever the pool has one row per id. |
| Properties.BulkSend | Bulk-Mailer.php:440-545 | The corrected bulk send, which counts and stamps rows on the same day: every limited pool account ends the run within its limit, unless it started above it, whenever the pool has one row per id. |
| Properties.BulkSendAsWritten | Bulk-Mailer.php:440-545 | The bulk send as written, stamping rows on the site day and counting on the UTC day; it agrees with the corrected one whenever the two days coincide. |
| Properties.ExhaustedPoolFailsAll | Bulk-Mailer.php:493-503 | If every pool account is exhausted at the start, every processed recipient gets the exhaustion row, no mail is sent, `failed` equals the number processed, and the accounts stay exhausted. |
| Properties.SingleAccountTakesItsLimit | Bulk-Mailer.php:479-503 | When rows are stamped with the day the quota counts and `L > 0`, a lone limited account with no rows today takes exactly the first `L` recipients; each later one gets a row naming no account, and its count after `n` recipients is `min(n, L)`. |
| Properties.UnlimitedRoundRobin | Bulk-Mailer.php:474-476 | In round-robin mode with no limited account, recipient `k` goes through account `k` modulo the pool size, and every recipient gets a send. |
| Properties.MismatchedDaysNeverExhaust | Bulk-Mailer.php:482-483 | When the stamp day and the counted day differ, a run never changes the counted day's tally: a lone account starting under its limit takes every recipient, and the stamp day gains one row per recipient. |
| Properties.DateMismatchExceedsLimit | Bulk-Mailer.php:155 | As written, with the site day apart from the UTC day and more recipients than the limit, one limited account ends the site day with more rows than its limit, whatever the transport answers. |

## Left out

- WordPress administration is not modelled: pages, menus, notices, nonces and capability checks. Neither is account create, update and delete, nor the SQL schema. They are interface and storage glue; the tables are sequences here.
- `parse_recipients`, `sanitize_text_field`, `sanitize_email`, `wp_kses_post` and `intval` are not modelled. The run starts from the recipients, subject and message as already cleaned. `is_email` is a parameter.
- `wp_mail`, the `phpmailer_init` hook and the static `$current_smtp` are not modelled. The transport is a parameter that answers true or false for each recipient index and mail. Its connection settings are carried in `Accounts.Connection` but not interpreted.
- The values of `array_rand` are an arbitrary draw for each recipient and probe. No probability distribution is modelled.
- `current_time('mysql')` and `gmdate('Y-m-d')` are reduced to the day each yields. Times within a day are not modelled, since the quota compares only `DATE(sent_at)`.
- The admin notice is modelled by its three numbers (`Dispatch.Outcome`), not its HTML.
- `log_mail`'s defaults for missing keys (`''`, `null`, `'unknown'`) are not modelled as such. The loop supplies every key except `message_id` in the exhaustion row (lines 495-501), which `log_mail` fills with `null`; the model writes no message id there, which is the same value. The log's auto-increment id is left out too. The message id is always `null`, as in the code, since no PHPMailer instance is reachable.
- The header text is split on line feeds rather than on `\r?\n`. Every piece is trimmed afterwards, which removes a trailing carriage return, so the kept header lines are the same.
- Properties.RunQuotaCap: the cap (and so `Properties.CampaignQuotaCap` and `Properties.BulkSend`) needs any two pool entries with the same id to be the same row (`Accounts.OneAccountPerId`). The same account listed twice is allowed. Two different rows sharing an id are not: `id` is the table's primary key, and the model does not derive that from the schema.
- Properties.RunQuotaCap: other requests writing to the logs table during a run are not modelled, so this cap, `Properties.CampaignQuotaCap` and `Properties.BulkSend` are guarantees for a single run with nothing else writing to the log. `process_bulk_send` takes no lock: two bulk sends running at once can each read the count at line 483 before either inserts its row at line 154, and between them take an account past its limit.
- The account table is a sequence read in increasing id order, as `ORDER BY id ASC` returns it (line 127). The model takes that order as given; `Accounts.SelectPoolSorted` states that the unselected pool keeps it.
- The clock is read once per bulk send: one stamp day and one quota day for the whole run. The code calls `gmdate` on every iteration (line 482) and `current_time` on every insert (line 155), so a run that crosses midnight moves to the new day part-way through. That case is not modelled.
- A failed `$wpdb->insert` in `log_mail` (line 154) goes unnoticed in the code. The model assumes every insert succeeds, so every processed recipient has its row.
- `bulk-mailer-req.php` is not part of this model: it only sets the mail content type.

## Findings

| source | as written | input that shows it | evidently intended | confidence | as-written member | corrected member |
|---|---|---|---|---|---|---|
| Bulk-Mailer.php:482-483 | Log rows are stamped with `current_time('mysql')` (line 155), the site-local time. The daily quota counts rows whose `DATE(sent_at)` equals `gmdate('Y-m-d')`, the UTC date. | A pool of one account with `daily_limit = 1` and no rows today, 2 recipients, test mode off, at a moment when the site's date differs from the UTC date (for example a site at UTC+2 between 00:00 and 02:00 local time). Both recipients go through the account, and its site-day count ends at 2 > 1. | The quota should count rows on the same day the rows are stamped with, so that each send is seen by the next check and the daily limit holds. | not executed | Properties.BulkSendAsWritten | Properties.BulkSend |

The counterexample is proved for every input of that shape as `Properties.DateMismatchExceedsLimit`, on top of `Properties.MismatchedDaysNeverExhaust`. The intended cap is proved as `Properties.RunQuotaCap` and carried to the whole send by `Properties.CampaignQuotaCap`.

=== FILE: accounts.dfy ===
/**
 * SMTP accounts, the rotation policy of `pick_smtp`, and how a bulk send
 * assembles its pool of accounts.
 */
module Accounts {
  import opened Options

  /** Connection settings the transport hook copies into the mailer; the dispatch core only passes them on. */
  datatype Connection = Connection(
    host: string,
    port: int,
    username: string,
    password: string,
    encryption: string,
    fromName: string,
    fromEmail: string)

  /** One row of the accounts table; `dailyLimit` is the nullable `daily_limit` column. */
  datatype Account = Account(id: int, connection: Connection, dailyLimit: Option<int>, active: bool)

  /** The two rotation modes; any submitted value other than "random" means round-robin. */
  datatype Rotation = RoundRobin | Random

  /** Reading the `rotation` form field, which may be absent. */
  function ParseRotation(field: Option<string>): (mode: Rotation)
    ensures mode == Random <==> field == Some("random")
  {
    match field
    case Some(v) => if v == "random" then Random else RoundRobin
    case None => RoundRobin
  }

  /**
   * `pick_smtp`: no account for an empty pool; otherwise the account at
   * position `i mod |pool|` in round-robin mode, or the account at an
   * arbitrary position in random mode. `draw` stands for the value of
   * `array_rand`: every position is reached by some draw.
   */
  function Pick(pool: seq<Account>, i: nat, mode: Rotation, draw: nat): (r: Option<Account>)
    ensures r.None? <==> pool == []
    ensures r.Some? ==> r.value in pool
  {
    if pool == [] then None
    else match mode
      case Random => Some(pool[draw % |pool|])
      case RoundRobin => Some(pool[i % |pool|])
  }

  /** In random mode every account of the pool can be the one picked. */
  lemma RandomReachesEveryAccount(pool: seq<Account>, i: nat, j: nat)
    requires j < |pool|
    ensures exists draw: nat :: Pick(pool, i, Random, draw) == Some(pool[j])
  {
    assert Pick(pool, i, Random, j) == Some(pool[j]);
  }

  /** Round-robin picks for recipient positions `0 .. m-1`. */
  function RoundRobinPicks(pool: seq<Account>, m: nat): (picks: seq<Account>)
    requires pool != []
    ensures |picks| == m
    ensures forall k :: 0 <= k < m ==> Pick(pool, k, RoundRobin, 0) == Some(picks[k])
  {
    if m == 0 then [] else RoundRobinPicks(pool, m - 1) + [Pick(pool, m - 1, RoundRobin, 0).value]
  }

  /** The pool written out `k` times in a row. */
  function Repeat(pool: seq<Account>, k: nat): (r: seq<Account>)
    ensures |r| == |pool| * k
  {
    if k == 0 then [] else Repeat(pool, k - 1) + pool
  }

  lemma MulAtLeast(n: nat, d: int)
    requires d >= 1
    ensures n * d >= n
  {
  }

  /** A multiple of a positive `n` strictly between `-n` and `n` is zero. */
  lemma SmallMultiple(n: int, d: int, e: int)
    requires n > 0 && n * d == e && -n < e < n
    ensures d == 0
  {
    if d >= 1 {
      MulAtLeast(n, d);
    }
  }

  /** Position `j` of cycle `k` is position `j` of the pool. */
  lemma {:induction false} ModAfterCycles(n: nat, k: nat, j: nat)
    requires j < n
    ensures (n * k + j) % n == j
  {
    var q := (n * k + j) / n;
    var r := (n * k + j) % n;
    assert n * q + r == n * k + j;
    assert n * (q - k) == j - r;
    SmallMultiple(n, q - k, j - r);
  }

  /**
   * Round-robin over positions `0 .. n*k-1` of an `n`-account pool visits
   * the accounts in pool order, once per cycle.
   */
  lemma {:induction false} RoundRobinCycles(pool: seq<Account>, k: nat)
    requires pool != []
    ensures RoundRobinPicks(pool, |pool| * k) == Repeat(pool, k)
    decreases k
  {
    if k > 0 {
      var n := |pool|;
      RoundRobinCycles(pool, k - 1);
      var picks := RoundRobinPicks(pool, n * k);
      var prev := RoundRobinPicks(pool, n * (k - 1));
      assert n * k == n * (k - 1) + n;
      forall j | 0 <= j < n * k
        ensures picks[j] == Repeat(pool, k)[j]
      {
        if j < n * (k - 1) {
          assert picks[j] == prev[j];
        } else {
          var off := j - n * (k - 1);
          ModAfterCycles(n, k - 1, off);
          assert picks[j] == pool[j % n];
        }
      }
    }
  }

  /** Each account is picked exactly `k` times per pool occurrence over `k` full cycles. */
  lemma {:induction false} RoundRobinFair(pool: seq<Account>, k: nat, a: Account)
    requires pool != []
    ensures multiset(RoundRobinPicks(pool, |pool| * k))[a] == k * multiset(pool)[a]
  {
    RoundRobinCycles(pool, k);
    RepeatCount(pool, k, a);
  }

  lemma {:induction false} RepeatCount(pool: seq<Account>, k: nat, a: Account)
    ensures multiset(Repeat(pool, k))[a] == k * multiset(pool)[a]
    decreases k
  {
    if k > 0 {
      var m := multiset(pool)[a];
      RepeatCount(pool, k - 1, a);
      assert multiset(Repeat(pool, k)) == multiset(Repeat(pool, k - 1)) + multiset(pool);
      assert multiset(Repeat(pool, k))[a] == (k - 1) * m + m;
      assert (k - 1) * m + m == k * m;
    }
  }

  /* ---------------- Pool selection ---------------- */

  /** `get_account`: the row with the given id, if there is one. */
  function FindAccount(store: seq<Account>, id: int): (r: Option<Account>)
    ensures r.Some? ==> r.value in store && r.value.id == id
    ensures r.None? ==> forall a :: a in store ==> a.id != id
  {
    if store == [] then None
    else if store[0].id == id then Some(store[0])
    else FindAccount(store[1..], id)
  }

  /** `get_accounts(true)`: the active rows, in table order. */
  function ActiveAccounts(store: seq<Account>): (r: seq<Account>)
    ensures forall a :: a in r <==> a in store && a.active
  {
    if store == [] then []
    else (if store[0].active then [store[0]] else []) + ActiveAccounts(store[1..])
  }

  /** Listing the active rows of two stretches of the table one after the other keeps both in order. */
  lemma {:induction false} ActiveAccountsAppend(a: seq<Account>, b: seq<Account>)
    ensures ActiveAccounts(a + b) == ActiveAccounts(a) + ActiveAccounts(b)
    decreases |a|
  {
    if a == [] {
      assert a + b == b;
    } else {
      assert (a + b)[0] == a[0];
      assert (a + b)[1..] == a[1..] + b;
      ActiveAccountsAppend(a[1..], b);
    }
  }

  /** Rows listed in strictly increasing id order, as `ORDER BY id ASC` reads them. */
  predicate SortedById(accounts: seq<Account>) {
    forall j, k :: 0 <= j < k < |accounts| ==> accounts[j].id < accounts[k].id
  }

  /** The active rows of a table read in id order are in id order too. */
  lemma {:induction false} ActiveAccountsSorted(store: seq<Account>)
    requires SortedById(store)
    ensures SortedById(ActiveAccounts(store))
    decreases |store|
  {
    if store != [] {
      var rest := ActiveAccounts(store[1..]);
      ActiveAccountsSorted(store[1..]);
      if store[0].active {
        var r := ActiveAccounts(store);
        assert r == [store[0]] + rest;
        forall k | 0 < k < |r|
          ensures store[0].id < r[k].id
        {
          assert r[k] == rest[k - 1] && rest[k - 1] in rest;
          var m :| 0 <= m < |store[1..]| && store[1..][m] == r[k];
          assert store[m + 1] == r[k];
        }
      }
    }
  }

  /** The accounts named by `ids`, in the order named, skipping unknown and inactive ones. */
  function ChosenAccounts(store: seq<Account>, ids: seq<int>): (r: seq<Account>)
    ensures |r| <= |ids|
    ensures forall a :: a in r ==> a in store && a.active && a.id in ids
  {
    if ids == [] then []
    else
      var found := FindAccount(store, ids[0]);
      (if found.Some? && found.value.active then [found.value] else []) + ChosenAccounts(store, ids[1..])
  }

  /** Choosing for two lists of ids one after the other keeps both in order. */
  lemma {:induction false} ChosenAccountsAppend(store: seq<Account>, ids1: seq<int>, ids2: seq<int>)
    ensures ChosenAccounts(store, ids1 + ids2) == ChosenAccounts(store, ids1) + ChosenAccounts(store, ids2)
    decreases |ids1|
  {
    if ids1 == [] {
      assert ids1 + ids2 == ids2;
    } else {
      assert (ids1 + ids2)[0] == ids1[0];
      assert (ids1 + ids2)[1..] == ids1[1..] + ids2;
      ChosenAccountsAppend(store, ids1[1..], ids2);
    }
  }

  /** Every id in `ids` names an active row of the table. */
  predicate AllActive(store: seq<Account>, ids: seq<int>) {
    forall k :: 0 <= k < |ids| ==> FindAccount(store, ids[k]).Some? && FindAccount(store, ids[k]).value.active
  }

  /**
   * When every submitted id names an active row, the pool has one entry per
   * submitted id, in the order submitted and with repeats kept.
   */
  lemma {:induction false} ChosenAccountsInOrder(store: seq<Account>, ids: seq<int>)
    requires AllActive(store, ids)
    ensures var r := ChosenAccounts(store, ids);
      |r| == |ids| && forall k :: 0 <= k < |ids| ==> r[k].id == ids[k] && r[k] in store
    decreases |ids|
  {
    if ids != [] {
      assert AllActive(store, ids[1..]) by {
        forall k | 0 <= k < |ids[1..]|
          ensures FindAccount(store, ids[1..][k]).Some? && FindAccount(store, ids[1..][k]).value.active
        {
          assert ids[1..][k] == ids[k + 1];
        }
      }
      ChosenAccountsInOrder(store, ids[1..]);
      var r := ChosenAccounts(store, ids);
      var rest := ChosenAccounts(store, ids[1..]);
      assert FindAccount(store, ids[0]).Some? && FindAccount(store, ids[0]).value.active;
      assert r == [FindAccount(store, ids[0]).value] + rest;
      forall k | 0 <= k < |ids|
        ensures r[k].id == ids[k] && r[k] in store
      {
        if k > 0 {
          assert r[k] == rest[k - 1] && ids[k] == ids[1..][k - 1];
        }
      }
    }
  }

  /**
   * No two different accounts share an id. The table's primary key makes
   * this hold of every list of its rows, including a pool that lists one
   * row twice.
   */
  predicate OneAccountPerId(accounts: seq<Account>) {
    forall b, c :: b in accounts && c in accounts && b.id == c.id ==> b == c
  }

  /**
   * The pool of a bulk send: the selected accounts that exist and are
   * active, or every active account when none is selected.
   */
  function SelectPool(store: seq<Account>, ids: seq<int>): (pool: seq<Account>)
    ensures forall a :: a in pool ==> a in store && a.active
    ensures ids == [] ==> forall a :: a in pool <==> a in store && a.active
    ensures ids != [] ==> |pool| <= |ids| && forall a :: a in pool ==> a.id in ids
    ensures OneAccountPerId(store) ==> OneAccountPerId(pool)
  {
    if ids != [] then ChosenAccounts(store, ids) else ActiveAccounts(store)
  }

  /** The pool built from the table read in id order, with no selection, is in id order. */
  lemma SelectPoolSorted(store: seq<Account>)
    requires SortedById(store)
    ensures SortedById(SelectPool(store, []))
  {
    ActiveAccountsSorted(store);
  }

  /** With one account per id, every active account whose id is listed is among the chosen accounts. */
  lemma {:induction false} ChosenAccountsComplete(store: seq<Account>, ids: seq<int>, a: Account)
    requires OneAccountPerId(store)
    requires a in store && a.active && a.id in ids
    ensures a in ChosenAccounts(store, ids)
    decreases |ids|
  {
    if ids[0] == a.id {
      assert FindAccount(store, a.id).value == a;
    } else {
      assert a.id in ids[1..];
      ChosenAccountsComplete(store, ids[1..], a);
    }
  }

  /** With one account per id, every active account that was selected lands in the pool. */
  lemma SelectPoolComplete(store: seq<Account>, ids: seq<int>, a: Account)
    requires OneAccountPerId(store)
    requires a in store && a.active && a.id in ids
    ensures a in SelectPool(store, ids)
  {
    ChosenAccountsComplete(store, ids, a);
  }
}

=== FILE: dispatch.dfy ===
/**
 * `process_bulk_send`: the early returns, the per-recipient loop with its
 * quota check and fallback, the `From` override, the transport call and
 * the one log row written for every processed recipient.
 */
module Dispatch {
  import opened Options
  import opened Text
  import opened Accounts
  import opened MailLog
  import opened Quota

  /** A parsed recipient line: an address and a possibly empty display name. */
  datatype Recipient = Recipient(email: string, name: string)

  /** What the loop hands to `wp_mail`, with the account the transport hook configures. */
  datatype Mail = Mail(to: string, subject: string, message: string, headers: seq<string>, account: Account)

  /**
   * The submitted form: recipients, subject and message as sanitized, the
   * raw header text, the `rotation` field if present, test mode, the
   * selected account ids (after `intval`) and the optional sender override.
   */
  datatype Request = Request(
    recipients: seq<Recipient>,
    subject: string,
    message: string,
    headersText: string,
    rotationField: Option<string>,
    testMode: bool,
    smtpIds: seq<int>,
    fromName: string,
    fromEmail: string)

  /**
   * The two clock readings of one run: the site-local day that
   * `current_time('mysql')` stamps on log rows, and the UTC day that
   * `gmdate('Y-m-d')` returns for the quota query.
   */
  datatype Clock = Clock(siteDay: Date, utcDay: Date)

  /** The collaborators of one run: clock, random draws, `is_email` and `wp_mail`. */
  datatype Env = Env(clock: Clock, draws: Draws, isEmail: string -> bool, send: (nat, Mail) -> bool)

  /** What the loop threads from recipient to recipient. */
  datatype State = State(log: seq<LogRow>, sent: nat, failed: nat, mails: seq<Mail>)

  const ExhaustedError: string := "All SMTP daily limits exhausted."
  const TransportError: string := "wp_mail returned false"

  /** How many recipients a run processes: at most three in test mode, all otherwise. */
  function ProcessLimit(count: nat, testMode: bool): (n: nat)
    ensures n <= count
    ensures testMode ==> n <= 3 && (n == 3 || n == count)
    ensures !testMode ==> n == count
  {
    if testMode then (if count < 3 then count else 3) else count
  }

  /** The sender override after validation: a true value that `is_email` rejects is dropped. */
  function SenderAddress(fromEmail: string, isEmail: string -> bool): (email: string)
    ensures email == fromEmail || email == ""
    ensures Truthy(email) ==> isEmail(email)
    ensures isEmail(fromEmail) || !Truthy(fromEmail) ==> email == fromEmail
  {
    if Truthy(fromEmail) && !isEmail(fromEmail) then "" else fromEmail
  }

  /**
   * The headers of each send: the parsed extra headers, then a `From`
   * line when the sender address is true in PHP's sense.
   */
  function SendHeaders(parsed: seq<string>, fromName: string, fromEmail: string): (hs: seq<string>)
    ensures |hs| >= |parsed| && hs[..|parsed|] == parsed
    ensures !Truthy(fromEmail) ==> hs == parsed
    ensures Truthy(fromEmail) ==> |hs| == |parsed| + 1 && |hs[|parsed|]| >= 6 && hs[|parsed|][..6] == "From: "
    ensures Truthy(fromEmail) && NoAngles(fromEmail) ==> AddressOf(hs[|parsed|][6..]) == fromEmail
    ensures Truthy(fromEmail) && NoAngles(fromEmail) ==>
      DisplayNameOf(hs[|parsed|][6..]) == (if Truthy(fromName) then fromName else "")
    ensures Truthy(fromEmail) && NoAngles(fromEmail) ==> (NoAngles(hs[|parsed|][6..]) <==> !Truthy(fromName))
  {
    if Truthy(fromEmail) then parsed + [FromHeader(fromName, fromEmail)] else parsed
  }

  /**
   * Everything the loop reads and never changes: the recipients, subject
   * and message, the header list every send gets, the rotation, the pool,
   * the collaborators, the day rows are stamped with (`stamp`) and the day
   * the quota counts (`today`).
   */
  datatype Setup = Setup(
    recipients: seq<Recipient>,
    subject: string,
    message: string,
    headers: seq<string>,
    rotation: Rotation,
    pool: seq<Account>,
    draws: Draws,
    send: (nat, Mail) -> bool,
    stamp: Date,
    today: Date)

  /**
   * The setup of a run. The rotation is random only when the form asks for
   * it. Every send gets the same headers: the parsed extra headers, then one
   * `From` line exactly when the sender override is true and accepted by
   * `is_email`, from which the override and the sender name read back.
   */
  function Prepare(req: Request, pool: seq<Account>, env: Env, stamp: Date, today: Date): (s: Setup)
    ensures s.recipients == req.recipients && s.subject == req.subject && s.message == req.message
    ensures s.pool == pool && s.draws == env.draws && s.send == env.send
    ensures s.stamp == stamp && s.today == today
    ensures s.rotation == Random <==> req.rotationField == Some("random")
    ensures var parsed := ParseHeaders(req.headersText);
      && |s.headers| == |parsed| + (if Truthy(req.fromEmail) && env.isEmail(req.fromEmail) then 1 else 0)
      && s.headers[..|parsed|] == parsed
    ensures var parsed := ParseHeaders(req.headersText);
      Truthy(req.fromEmail) && env.isEmail(req.fromEmail) ==>
        && |s.headers[|parsed|]| >= 6 && s.headers[|parsed|][..6] == "From: "
        && (NoAngles(req.fromEmail) ==>
              && AddressOf(s.headers[|parsed|][6..]) == req.fromEmail
              && DisplayNameOf(s.headers[|parsed|][6..]) == (if Truthy(req.fromName) then req.fromName else "")
              && (NoAngles(s.headers[|parsed|][6..]) <==> !Truthy(req.fromName)))
  {
    var headers := SendHeaders(ParseHeaders(req.headersText), req.fromName, SenderAddress(req.fromEmail, env.isEmail));
    var rotation := ParseRotation(req.rotationField);
    Setup(req.recipients, req.subject, req.message, headers, rotation, pool, env.draws, env.send, stamp, today)
  }

  /**
   * The mail for recipient `rcpt` sent through `acc`: it is addressed to
   * `Name <email>` when the recipient has a name, so both parts can be read
   * back from the `To` argument, and it carries the run's subject, message
   * and headers.
   */
  function Compose(s: Setup, rcpt: Recipient, acc: Account): (m: Mail)
    ensures m.subject == s.subject && m.message == s.message && m.headers == s.headers && m.account == acc
    ensures NoAngles(rcpt.email) ==> AddressOf(m.to) == rcpt.email
    ensures NoAngles(rcpt.email) ==> DisplayNameOf(m.to) == (if Truthy(rcpt.name) then rcpt.name else "")
    ensures NoAngles(rcpt.email) ==> (NoAngles(m.to) <==> !Truthy(rcpt.name))
  {
    var m := Mail(Mailbox(rcpt.name, rcpt.email), s.subject, s.message, s.headers, acc);
    if NoAngles(rcpt.email) then
      MailboxRoundTrip(rcpt.name, rcpt.email);
      m
    else
      m
  }

  /**
   * `r` is `st` after one more row: the earlier rows and transport calls
   * are kept, the row's status moves exactly one of the counters, and a
   * transport call was made exactly when the row names an account.
   */
  predicate Advances(st: State, r: State) {
    && |r.log| == |st.log| + 1 && r.log[..|st.log|] == st.log
    && r.sent == st.sent + (if r.log[|st.log|].status == Sent then 1 else 0)
    && r.failed == st.failed + (if r.log[|st.log|].status == Failed then 1 else 0)
    && |r.mails| == |st.mails| + (if r.log[|st.log|].smtpId.Some? then 1 else 0)
    && r.mails[..|st.mails|] == st.mails
  }

  /** `row` is the row of recipient `i`: its address, the run's subject and stamp, and no message id. */
  predicate Records(s: Setup, i: nat, row: LogRow)
    requires i < |s.recipients|
  {
    row.recipient == s.recipients[i].email && row.subject == s.subject && row.sentOn == s.stamp && row.messageId.None?
  }

  /**
   * The row and the transport call for recipient `i` once the account
   * search has given `pick`: the row names the picked account, if any.
   */
  function Deliver(s: Setup, st: State, i: nat, pick: Option<Account>): (r: State)
    requires i < |s.recipients|
    ensures Advances(st, r) && Records(s, i, r.log[|st.log|])
    ensures r.log[|st.log|].smtpId == (if pick.Some? then Some(pick.value.id) else None)
  {
    var rcpt := s.recipients[i];
    match pick
    case None =>
      var e := Entry(rcpt.email, s.subject, None, Failed, Some(ExhaustedError), None);
      State(LogMail(st.log, s.stamp, e), st.sent, st.failed + 1, st.mails)
    case Some(acc) =>
      var m := Compose(s, rcpt, acc);
      var ok := s.send(i, m);
      var e := Entry(rcpt.email, s.subject, Some(acc.id), if ok then Sent else Failed,
                     if ok then None else Some(TransportError), None);
      State(LogMail(st.log, s.stamp, e), if ok then st.sent + 1 else st.sent,
            if ok then st.failed else st.failed + 1, st.mails + [m])
  }

  /**
   * Without an account the row is the fixed exhaustion failure and nothing
   * is sent; with one, the mail for the recipient goes out through it and
   * the row's status and error follow the transport's answer.
   */
  lemma DeliverOutcome(s: Setup, st: State, i: nat, pick: Option<Account>)
    requires i < |s.recipients|
    ensures var r := Deliver(s, st, i, pick);
      var row := r.log[|st.log|];
      && (pick.None? ==> row.status == Failed && row.error == Some(ExhaustedError) && r.mails == st.mails)
      && (pick.Some? ==>
            var m := Compose(s, s.recipients[i], pick.value);
            && r.mails[|st.mails|] == m
            && (s.send(i, m) ==> row.status == Sent && row.error.None?)
            && (!s.send(i, m) ==> row.status == Failed && row.error == Some(TransportError)))
  {
  }

  /** One iteration of the loop, for recipient `i`: search for an account, then deliver. */
  function Step(s: Setup, st: State, i: nat): (r: State)
    requires s.pool != [] && i < |s.recipients|
    ensures Advances(st, r) && Records(s, i, r.log[|st.log|])
  {
    Deliver(s, st, i, Assign(s.pool, i, s.rotation, s.draws, st.log, s.today))
  }

  /**
   * What the row of one iteration says: no account exactly when the
   * fallback search found none, with the fixed exhaustion error and no
   * transport call; otherwise the account that was actually used (the
   * fallback pick when there was one), within its limit, and a status
   * that follows the transport's answer.
   */
  lemma StepOutcome(s: Setup, st: State, i: nat)
    requires s.pool != [] && i < |s.recipients|
    ensures var r := Step(s, st, i);
      var row := r.log[|st.log|];
      && (row.smtpId.None? <==> Assign(s.pool, i, s.rotation, s.draws, st.log, s.today).None?)
      && (row.smtpId.None? ==>
            row.status == Failed && row.error == Some(ExhaustedError) && r.mails == st.mails)
      && (row.smtpId.Some? ==>
            var m := r.mails[|st.mails|];
            && Assign(s.pool, i, s.rotation, s.draws, st.log, s.today) == Some(m.account)
            && m.account in s.pool
            && !Exhausted(st.log, m.account, s.today)
            && row.smtpId == Some(m.account.id)
            && m == Compose(s, s.recipients[i], m.account)
            && (s.send(i, m) ==> row.status == Sent && row.error.None?)
            && (!s.send(i, m) ==> row.status == Failed && row.error == Some(TransportError)))
  {
    DeliverOutcome(s, st, i, Assign(s.pool, i, s.rotation, s.draws, st.log, s.today));
  }

  /**
   * The state after the first `n` recipients, starting from the log as it
   * was. The loop is split over three functions, `Run`, `After` and
   * `Iterate`, which together are one recursion over `n` (the second
   * component of each `decreases` orders the calls within one `n`). With
   * the split, unfolding a run by one recipient stops at `After`, so proofs
   * about whole runs do not also unfold the body of `Step`; the lemmas
   * about one iteration are stated on `After`.
   */
  function Run(s: Setup, log0: seq<LogRow>, n: nat): (r: State)
    requires s.pool != [] && n <= |s.recipients|
    ensures |r.log| == |log0| + n
    ensures r.sent + r.failed == n
    ensures |r.mails| <= n
    decreases n, 0
  {
    if n == 0 then State(log0, 0, 0, [])
    else After(s, log0, n - 1)
  }

  /** The state once recipient `i` has been handled. */
  function After(s: Setup, log0: seq<LogRow>, i: nat): (r: State)
    requires s.pool != [] && i < |s.recipients|
    ensures |r.log| == |log0| + i + 1
    ensures r.sent + r.failed == i + 1
    ensures |r.mails| <= i + 1
    decreases i, 2
  {
    Iterate(s, log0, i)
  }

  /**
   * Iteration `i` of the loop, from the state the run reached before it.
   * It sits one call below `After`, so that a proof which unfolds a run by
   * one recipient does not also unfold the body of the iteration.
   */
  function Iterate(s: Setup, log0: seq<LogRow>, i: nat): (r: State)
    requires s.pool != [] && i < |s.recipients|
    ensures |r.log| == |log0| + i + 1
    ensures r.sent + r.failed == i + 1
    ensures |r.mails| <= i + 1
    decreases i, 1
  {
    Step(s, Run(s, log0, i), i)
  }

  /** A run only appends: the rows that were there before it are kept as they were. */
  lemma {:induction false} RunKeepsLog(s: Setup, log0: seq<LogRow>, n: nat)
    requires s.pool != [] && n <= |s.recipients|
    ensures Run(s, log0, n).log[..|log0|] == log0
    decreases n
  {
    if n > 0 {
      RunKeepsLog(s, log0, n - 1);
      var st := Run(s, log0, n - 1);
      var r := Step(s, st, n - 1);
      assert Run(s, log0, n) == Iterate(s, log0, n - 1) == r;
      assert r.log[..|st.log|] == st.log;
      assert r.log[..|log0|] == st.log[..|log0|];
    }
  }

  /** Row `k` of a run is the row of recipient `k`. */
  function RecordedBy(s: Setup): (nat, LogRow) -> bool {
    (k: nat, row: LogRow) => RecordsAt(s, k, row)
  }

  predicate RecordsAt(s: Setup, k: nat, row: LogRow) {
    k < |s.recipients| && Records(s, k, row)
  }

  /** Spelled out: row `k` names recipient `k`, the run's subject and the run's stamp. */
  lemma RecordedRows(s: Setup, rows: seq<LogRow>)
    requires EveryRow(rows, RecordedBy(s))
    ensures forall k :: 0 <= k < |rows| ==>
      rows[k].recipient == s.recipients[k].email && rows[k].subject == s.subject && rows[k].sentOn == s.stamp
  {
    EveryRowAt(rows, RecordedBy(s));
    forall k | 0 <= k < |rows|
      ensures rows[k].recipient == s.recipients[k].email && rows[k].subject == s.subject && rows[k].sentOn == s.stamp
    {
      assert RecordedBy(s)(k, rows[k]);
    }
  }

  /** The rows of a run belong to the recipients in order and carry the run's subject and stamp. */
  lemma {:induction false} RunRowsInOrder(s: Setup, log0: seq<LogRow>, n: nat)
    requires s.pool != [] && n <= |s.recipients|
    ensures EveryRow(Run(s, log0, n).log[|log0|..], RecordedBy(s))
    decreases n
  {
    if n == 0 {
      assert Run(s, log0, n).log[|log0|..] == [];
    } else {
      RunRowsInOrder(s, log0, n - 1);
      var st := Run(s, log0, n - 1);
      var r := Step(s, st, n - 1);
      assert Run(s, log0, n) == Iterate(s, log0, n - 1) == r;
      assert EveryRow(st.log[|log0|..], RecordedBy(s));
      assert Advances(st, r);
      assert |st.log| - |log0| == n - 1;
      assert RecordedBy(s)(n - 1, r.log[|st.log|]);
      EveryRowExtend(st.log, r.log, |log0|, RecordedBy(s));
    }
  }

  /** The counters agree with the rows written after the first `k`. */
  predicate CountersAgree(k: nat, st: State) {
    && k <= |st.log|
    && st.sent == Tally(st.log[k..], Sent)
    && st.failed == Tally(st.log[k..], Failed)
    && |st.mails| == Assigned(st.log[k..])
  }

  lemma CountersAdvance(k: nat, st: State, r: State)
    requires CountersAgree(k, st) && Advances(st, r)
    ensures CountersAgree(k, r)
  {
    TalliesExtend(st.log, r.log, k);
  }

  lemma {:induction false} RunCounters(s: Setup, log0: seq<LogRow>, n: nat)
    requires s.pool != [] && n <= |s.recipients|
    ensures CountersAgree(|log0|, Run(s, log0, n))
    decreases n
  {
    if n == 0 {
      assert Run(s, log0, n).log[|log0|..] == [];
    } else {
      RunCounters(s, log0, n - 1);
      var st := Run(s, log0, n - 1);
      var r := Step(s, st, n - 1);
      assert Run(s, log0, n) == Iterate(s, log0, n - 1) == r;
      assert CountersAgree(|log0|, st) && Advances(st, r);
      CountersAdvance(|log0|, st, r);
    }
  }

  /** How the run ended, as reported in the admin notice. */
  datatype Outcome = MissingInput | NoAccounts | Completed(processed: nat, sent: nat, failed: nat)

  /** The outcome with the log and the transport calls it leaves behind. */
  datatype Report = Report(outcome: Outcome, log: seq<LogRow>, mails: seq<Mail>)

  /**
   * A bulk send against `log0` with the accounts table `store`: it stops
   * before the loop, writing nothing, when recipients, subject or message
   * is missing or the pool selected from the table is empty;
   * otherwise it processes `ProcessLimit` recipients and writes one row each.
   */
  function Campaign(req: Request, store: seq<Account>, env: Env, stamp: Date, today: Date, log0: seq<LogRow>)
    : (r: Report)
    ensures (|req.recipients| == 0 || !Truthy(req.subject) || !Truthy(req.message)) ==>
      r.outcome == MissingInput && r.log == log0 && r.mails == []
    ensures |req.recipients| > 0 && Truthy(req.subject) && Truthy(req.message) && SelectPool(store, req.smtpIds) == [] ==>
      r.outcome == NoAccounts && r.log == log0 && r.mails == []
    ensures |req.recipients| > 0 && Truthy(req.subject) && Truthy(req.message) && SelectPool(store, req.smtpIds) != [] ==>
      && r.outcome.Completed?
      && r.outcome.processed == ProcessLimit(|req.recipients|, req.testMode)
      && r.outcome.sent + r.outcome.failed == r.outcome.processed
      && |r.log| == |log0| + r.outcome.processed && r.log[..|log0|] == log0
      && r.outcome.sent == Tally(r.log[|log0|..], Sent)
      && r.outcome.failed == Tally(r.log[|log0|..], Failed)
      && |r.mails| == Assigned(r.log[|log0|..])
      && var rows := r.log[|log0|..];
         forall k :: 0 <= k < |rows| ==>
           rows[k].recipient == req.recipients[k].email && rows[k].subject == req.subject && rows[k].sentOn == stamp
  {
    var pool := SelectPool(store, req.smtpIds);
    if |req.recipients| == 0 || !Truthy(req.subject) || !Truthy(req.message) then
      Report(MissingInput, log0, [])
    else if pool == [] then
      Report(NoAccounts, log0, [])
    else
      var s := Prepare(req, pool, env, stamp, today);
      var limit := ProcessLimit(|req.recipients|, req.testMode);
      var st := Run(s, log0, limit);
      RunCounters(s, log0, limit);
      RunRowsInOrder(s, log0, limit);
      RunKeepsLog(s, log0, limit);
      var rows := st.log[|log0|..];
      RecordedRows(s, rows);
      Report(Completed(limit, st.sent, st.failed), st.log, st.mails)
  }
}

=== FILE: mail_log.dfy ===
/**
 * The delivery log: `log_mail` appends one row per call, and the daily
 * quota reads it back with `COUNT(*) ... WHERE smtp_id = id AND DATE(sent_at) = day`.
 */
module MailLog {
  import opened Options

  /** A calendar day, the `DATE(...)` of a timestamp; only equality of days matters. */
  type Date = int

  /** The two statuses the dispatch loop writes. */
  datatype Status = Sent | Failed

  /** One row of the log table (the auto-increment id is left out). */
  datatype LogRow = LogRow(
    sentOn: Date,
    recipient: string,
    subject: string,
    smtpId: Option<int>,
    status: Status,
    error: Option<string>,
    messageId: Option<string>)

  /** The fields a caller hands to `log_mail`; the insert adds the time stamp. */
  datatype Entry = Entry(
    recipient: string,
    subject: string,
    smtpId: Option<int>,
    status: Status,
    error: Option<string>,
    messageId: Option<string>)

  /** `log_mail`: insert the entry stamped with the current day after all existing rows. */
  function LogMail(log: seq<LogRow>, today: Date, e: Entry): (r: seq<LogRow>)
    ensures |r| == |log| + 1
    ensures r[..|log|] == log
    ensures r[|log|].sentOn == today && r[|log|].smtpId == e.smtpId && r[|log|].status == e.status
    ensures r[|log|].recipient == e.recipient && r[|log|].subject == e.subject
    ensures r[|log|].error == e.error && r[|log|].messageId == e.messageId
  {
    log + [LogRow(today, e.recipient, e.subject, e.smtpId, e.status, e.error, e.messageId)]
  }

  /** The row counts against account `id` on `day`. */
  predicate Charged(row: LogRow, id: int, day: Date) {
    row.smtpId == Some(id) && row.sentOn == day
  }

  /** The number of rows charged to account `id` on `day`, whatever their status. */
  function CountOn(log: seq<LogRow>, id: int, day: Date): (n: nat)
    ensures n <= |log|
  {
    if log == [] then 0
    else (if Charged(log[0], id, day) then 1 else 0) + CountOn(log[1..], id, day)
  }

  /** Counting a log in two pieces and adding agrees with counting it whole. */
  lemma {:induction false} CountConcat(a: seq<LogRow>, b: seq<LogRow>, id: int, day: Date)
    ensures CountOn(a + b, id, day) == CountOn(a, id, day) + CountOn(b, id, day)
    decreases |a|
  {
    if a == [] {
      assert a + b == b;
    } else {
      assert (a + b)[0] == a[0];
      assert (a + b)[1..] == a[1..] + b;
      CountConcat(a[1..], b, id, day);
    }
  }

  /** Each `log_mail` raises exactly one account's count for exactly its day, by one. */
  lemma CountAfterLogMail(log: seq<LogRow>, today: Date, e: Entry, id: int, day: Date)
    ensures CountOn(LogMail(log, today, e), id, day)
         == CountOn(log, id, day) + (if e.smtpId == Some(id) && today == day then 1 else 0)
  {
    var row := LogRow(today, e.recipient, e.subject, e.smtpId, e.status, e.error, e.messageId);
    CountConcat(log, [row], id, day);
  }

  /** The number of rows with the given status. */
  function Tally(rows: seq<LogRow>, status: Status): (n: nat)
    ensures n <= |rows|
  {
    if rows == [] then 0
    else (if rows[0].status == status then 1 else 0) + Tally(rows[1..], status)
  }

  lemma {:induction false} TallyConcat(a: seq<LogRow>, b: seq<LogRow>, status: Status)
    ensures Tally(a + b, status) == Tally(a, status) + Tally(b, status)
    decreases |a|
  {
    if a == [] {
      assert a + b == b;
    } else {
      assert (a + b)[0] == a[0];
      assert (a + b)[1..] == a[1..] + b;
      TallyConcat(a[1..], b, status);
    }
  }

  /** The number of rows that name an account (a send was attempted for them). */
  function Assigned(rows: seq<LogRow>): (n: nat)
    ensures n <= |rows|
  {
    if rows == [] then 0
    else (if rows[0].smtpId.Some? then 1 else 0) + Assigned(rows[1..])
  }

  lemma {:induction false} AssignedConcat(a: seq<LogRow>, b: seq<LogRow>)
    ensures Assigned(a + b) == Assigned(a) + Assigned(b)
    decreases |a|
  {
    if a == [] {
      assert a + b == b;
    } else {
      assert (a + b)[0] == a[0];
      assert (a + b)[1..] == a[1..] + b;
      AssignedConcat(a[1..], b);
    }
  }

  /** A log that extends `a` by one row is `a` plus that row, and so is each of its suffixes. */
  lemma ExtendsByOne(a: seq<LogRow>, b: seq<LogRow>, k: nat)
    requires |b| == |a| + 1 && b[..|a|] == a && k <= |a|
    ensures b == a + [b[|a|]]
    ensures b[k..] == a[k..] + [b[|a|]]
  {
    assert b == b[..|a|] + [b[|a|]];
  }

  /** Extending a log by one row adds that row's share to the tallies of each suffix. */
  lemma TalliesExtend(a: seq<LogRow>, b: seq<LogRow>, k: nat)
    requires |b| == |a| + 1 && b[..|a|] == a && k <= |a|
    ensures Tally(b[k..], Sent) == Tally(a[k..], Sent) + (if b[|a|].status == Sent then 1 else 0)
    ensures Tally(b[k..], Failed) == Tally(a[k..], Failed) + (if b[|a|].status == Failed then 1 else 0)
    ensures Assigned(b[k..]) == Assigned(a[k..]) + (if b[|a|].smtpId.Some? then 1 else 0)
  {
    ExtendsByOne(a, b, k);
    var last := [b[|a|]];
    assert last[1..] == [];
    TallyConcat(a[k..], last, Sent);
    TallyConcat(a[k..], last, Failed);
    AssignedConcat(a[k..], last);
  }

  /** Extending a log by one row adds that row to each account's count of each day, if it is charged there. */
  lemma CountExtend(a: seq<LogRow>, b: seq<LogRow>, id: int, day: Date)
    requires |b| == |a| + 1 && b[..|a|] == a
    ensures CountOn(b, id, day) == CountOn(a, id, day) + (if Charged(b[|a|], id, day) then 1 else 0)
  {
    ExtendsByOne(a, b, 0);
    var last := [b[|a|]];
    assert last[1..] == [];
    CountConcat(a, last, id, day);
  }

  /** `p(k, rows[k])` holds at every position `k`, established row by row as the log grows. */
  predicate EveryRow(rows: seq<LogRow>, p: (nat, LogRow) -> bool)
    decreases |rows|
  {
    rows != [] ==> EveryRow(rows[..|rows| - 1], p) && p(|rows| - 1, rows[|rows| - 1])
  }

  /** The row-by-row form and the positionwise form say the same. */
  lemma {:induction false} EveryRowAt(rows: seq<LogRow>, p: (nat, LogRow) -> bool)
    ensures EveryRow(rows, p) <==> forall k :: 0 <= k < |rows| ==> p(k, rows[k])
    decreases |rows|
  {
    if rows != [] {
      var init := rows[..|rows| - 1];
      EveryRowAt(init, p);
      assert forall k :: 0 <= k < |init| ==> init[k] == rows[k];
    }
  }

  /** A log extended by one row keeps `p` on the rows after the first `k0` when the new row has it too. */
  lemma EveryRowExtend(a: seq<LogRow>, b: seq<LogRow>, k0: nat, p: (nat, LogRow) -> bool)
    requires |b| == |a| + 1 && b[..|a|] == a && k0 <= |a|
    requires EveryRow(a[k0..], p) && p(|a| - k0, b[|a|])
    ensures EveryRow(b[k0..], p)
  {
    ExtendsByOne(a, b, k0);
    var rows := b[k0..];
    assert rows[..|rows| - 1] == a[k0..];
  }
}

=== FILE: options.dfy ===
/** The optional value used throughout the model for PHP's `null`. */
module Options {

  /** `None` stands for a PHP `null`; `Some(v)` for a present value. */
  datatype Option<+T> = None | Some(value: T)
}

=== FILE: properties.dfy ===
/**
 * Guarantees of whole runs: the daily cap holds across a run, exhausted
 * pools fail every recipient without a send, a lone limited account takes
 * exactly its limit, unlimited round-robin follows the pool in order; and
 * the bulk send itself, with the quota counted on the day its rows are
 * stamped with, next to the bulk send as written.
 */
module Properties {
  import opened Options
  import opened Text
  import opened Accounts
  import opened MailLog
  import opened Quota
  import opened Dispatch

  function Max(a: int, b: int): int {
    if a < b then b else a
  }

  function Min(a: int, b: int): int {
    if a < b then a else b
  }

  // Quota safety

  /**
   * One iteration whose row is stamped with the day the quota counts: a
   * limited account's count rises only while it is under its limit.
   */
  lemma QuotaStep(s: Setup, st: State, i: nat, a: Account)
    requires s.pool != [] && i < |s.recipients| && s.stamp == s.today
    requires OneAccountPerId(s.pool) && a in s.pool && Limited(a)
    ensures CountOn(Step(s, st, i).log, a.id, s.today) <= Max(CountOn(st.log, a.id, s.today), a.dailyLimit.value)
  {
    var r := Step(s, st, i);
    var row := r.log[|st.log|];
    StepOutcome(s, st, i);
    CountExtend(st.log, r.log, a.id, s.today);
  }

  /** The quota step, stated on iteration `i` of a run. */
  lemma QuotaAt(s: Setup, log0: seq<LogRow>, i: nat, a: Account)
    requires s.pool != [] && i < |s.recipients| && s.stamp == s.today
    requires OneAccountPerId(s.pool) && a in s.pool && Limited(a)
    ensures CountOn(After(s, log0, i).log, a.id, s.today) <= Max(CountOn(Run(s, log0, i).log, a.id, s.today), a.dailyLimit.value)
  {
    QuotaStep(s, Run(s, log0, i), i, a);
  }

  /**
   * Quota safety over a run whose rows are stamped with the day the quota
   * is counted for: a limited account never ends above its limit, unless it
   * already was above it, in which case it gets no further row.
   */
  lemma {:induction false} RunQuotaCap(s: Setup, log0: seq<LogRow>, n: nat, a: Account)
    requires s.pool != [] && n <= |s.recipients| && s.stamp == s.today
    requires OneAccountPerId(s.pool) && a in s.pool && Limited(a)
    ensures CountOn(Run(s, log0, n).log, a.id, s.today) <= Max(CountOn(log0, a.id, s.today), a.dailyLimit.value)
    decreases n
  {
    if n > 0 {
      RunQuotaCap(s, log0, n - 1, a);
      QuotaAt(s, log0, n - 1, a);
    }
  }

  // Exhausted pools

  /** Every account of the pool has reached its limit for `today`. */
  predicate AllExhausted(log: seq<LogRow>, pool: seq<Account>, today: Date) {
    forall a :: a in pool ==> Exhausted(log, a, today)
  }

  /**
   * The row written for a recipient no account could take. It holds at every position,
   * so `k` goes unused; it is there because row properties take the position.
   */
  predicate NoAccountRow(k: nat, row: LogRow) {
    row.smtpId.None? && row.status == Failed && row.error == Some(ExhaustedError)
  }

  /** One iteration against a pool whose accounts are all exhausted writes the exhaustion row and keeps them exhausted. */
  lemma ExhaustedStep(s: Setup, st: State, i: nat)
    requires s.pool != [] && i < |s.recipients|
    requires AllExhausted(st.log, s.pool, s.today)
    ensures var r := Step(s, st, i);
      && NoAccountRow(i, r.log[|st.log|])
      && r.mails == st.mails && r.sent == st.sent && r.failed == st.failed + 1
      && AllExhausted(r.log, s.pool, s.today)
  {
    var r := Step(s, st, i);
    StepOutcome(s, st, i);
    forall a | a in s.pool
      ensures Exhausted(r.log, a, s.today)
    {
      CountExtend(st.log, r.log, a.id, s.today);
    }
  }

  /** The exhaustion step, stated on iteration `i` of a run. */
  lemma ExhaustedAt(s: Setup, log0: seq<LogRow>, i: nat)
    requires s.pool != [] && i < |s.recipients|
    requires AllExhausted(Run(s, log0, i).log, s.pool, s.today)
    ensures var st := Run(s, log0, i); var r := After(s, log0, i);
      && Advances(st, r) && NoAccountRow(i, r.log[|st.log|])
      && r.mails == st.mails && r.sent == st.sent && r.failed == st.failed + 1
      && AllExhausted(r.log, s.pool, s.today)
  {
    ExhaustedStep(s, Run(s, log0, i), i);
  }

  /**
   * When every account of the pool is exhausted at the start, every
   * processed recipient gets the exhaustion row, no transport call is made,
   * and the accounts stay exhausted.
   */
  lemma {:induction false} ExhaustedPoolFailsAll(s: Setup, log0: seq<LogRow>, n: nat)
    requires s.pool != [] && n <= |s.recipients|
    requires AllExhausted(log0, s.pool, s.today)
    ensures var r := Run(s, log0, n);
      && r.sent == 0 && r.failed == n && r.mails == []
      && EveryRow(r.log[|log0|..], NoAccountRow)
      && AllExhausted(r.log, s.pool, s.today)
    decreases n
  {
    if n == 0 {
      assert Run(s, log0, n).log[|log0|..] == [];
    } else {
      ExhaustedPoolFailsAll(s, log0, n - 1);
      var st := Run(s, log0, n - 1);
      var r := After(s, log0, n - 1);
      assert Run(s, log0, n) == r;
      ExhaustedAt(s, log0, n - 1);
      assert |st.log| - |log0| == n - 1;
      EveryRowExtend(st.log, r.log, |log0|, NoAccountRow);
    }
  }

  // A single limited account

  /** Row `k` of a run through the lone account `a` names it while `k` is under its limit, and no account after. */
  function WithinLimit(a: Account): (nat, LogRow) -> bool {
    (k: nat, row: LogRow) => UsesWithinLimit(a, k, row)
  }

  predicate UsesWithinLimit(a: Account, k: nat, row: LogRow) {
    a.dailyLimit.Some? && row.smtpId == (if k < a.dailyLimit.value then Some(a.id) else None)
  }

  /** Recipient `i` of a run through the lone account `a`, which has taken `min(i, L)` rows so far today. */
  lemma SingleAccountStep(s: Setup, st: State, i: nat, a: Account)
    requires s.pool == [a] && i < |s.recipients| && s.stamp == s.today
    requires Limited(a) && a.dailyLimit.value > 0
    requires CountOn(st.log, a.id, s.today) == Min(i, a.dailyLimit.value)
    ensures var r := Step(s, st, i);
      && WithinLimit(a)(i, r.log[|st.log|])
      && CountOn(r.log, a.id, s.today) == Min(i + 1, a.dailyLimit.value)
  {
    var r := Step(s, st, i);
    StepOutcome(s, st, i);
    CountExtend(st.log, r.log, a.id, s.today);
    var pick := Assign(s.pool, i, s.rotation, s.draws, st.log, s.today);
    assert Candidate(s.pool, i, s.rotation, s.draws, 0) == a;
    if i < a.dailyLimit.value {
      assert pick.Some?;
    } else {
      assert pick.None?;
    }
  }

  /** The single-account step, stated on iteration `i` of a run. */
  lemma SingleAccountAt(s: Setup, log0: seq<LogRow>, i: nat, a: Account)
    requires s.pool == [a] && i < |s.recipients| && s.stamp == s.today
    requires Limited(a) && a.dailyLimit.value > 0
    requires CountOn(Run(s, log0, i).log, a.id, s.today) == Min(i, a.dailyLimit.value)
    ensures var st := Run(s, log0, i); var r := After(s, log0, i);
      && Advances(st, r) && WithinLimit(a)(i, r.log[|st.log|])
      && CountOn(r.log, a.id, s.today) == Min(i + 1, a.dailyLimit.value)
  {
    SingleAccountStep(s, Run(s, log0, i), i, a);
  }

  /**
   * A pool of one limited account with no rows today and a limit `L > 0`:
   * the first `L` recipients go through it and every later one is
   * unassignable, so its count after `n` recipients is `min(n, L)`.
   */
  lemma {:induction false} SingleAccountTakesItsLimit(s: Setup, log0: seq<LogRow>, n: nat, a: Account)
    requires s.pool == [a] && n <= |s.recipients| && s.stamp == s.today
    requires Limited(a) && a.dailyLimit.value > 0 && CountOn(log0, a.id, s.today) == 0
    ensures var r := Run(s, log0, n);
      && CountOn(r.log, a.id, s.today) == Min(n, a.dailyLimit.value)
      && EveryRow(r.log[|log0|..], WithinLimit(a))
    decreases n
  {
    if n == 0 {
      assert Run(s, log0, n).log[|log0|..] == [];
    } else {
      SingleAccountTakesItsLimit(s, log0, n - 1, a);
      var st := Run(s, log0, n - 1);
      var r := After(s, log0, n - 1);
      assert Run(s, log0, n) == r;
      SingleAccountAt(s, log0, n - 1, a);
      assert EveryRow(st.log[|log0|..], WithinLimit(a));
      assert |st.log| - |log0| == n - 1;
      EveryRowExtend(st.log, r.log, |log0|, WithinLimit(a));
    }
  }

  // Unlimited round-robin

  /** Row `k` names account `k mod |pool|`. */
  function InTurn(pool: seq<Account>): (nat, LogRow) -> bool {
    (k: nat, row: LogRow) => UsesInTurn(pool, k, row)
  }

  predicate UsesInTurn(pool: seq<Account>, k: nat, row: LogRow) {
    pool != [] && row.smtpId == Some(pool[k % |pool|].id)
  }

  /** No account of the pool has a limit. */
  predicate Unlimited(pool: seq<Account>) {
    forall a :: a in pool ==> !Limited(a)
  }

  /** With no limits in the pool, round-robin sends recipient `i` through account `i mod |pool|`. */
  lemma RoundRobinStep(s: Setup, st: State, i: nat)
    requires s.pool != [] && i < |s.recipients| && s.rotation == RoundRobin && Unlimited(s.pool)
    ensures var r := Step(s, st, i);
      InTurn(s.pool)(i, r.log[|st.log|]) && |r.mails| == |st.mails| + 1
  {
    StepOutcome(s, st, i);
    var first := Candidate(s.pool, i, s.rotation, s.draws, 0);
    assert first == s.pool[i % |s.pool|];
    assert Assign(s.pool, i, s.rotation, s.draws, st.log, s.today) == Some(first);
  }

  /** The round-robin step, stated on iteration `i` of a run. */
  lemma RoundRobinAt(s: Setup, log0: seq<LogRow>, i: nat)
    requires s.pool != [] && i < |s.recipients| && s.rotation == RoundRobin && Unlimited(s.pool)
    ensures var st := Run(s, log0, i); var r := After(s, log0, i);
      && Advances(st, r) && InTurn(s.pool)(i, r.log[|st.log|]) && |r.mails| == |st.mails| + 1
  {
    RoundRobinStep(s, Run(s, log0, i), i);
  }

  /**
   * Round-robin with no limited account in the pool: recipient `k` goes
   * through account `k mod |pool|`, and every recipient gets a send.
   */
  lemma {:induction false} UnlimitedRoundRobin(s: Setup, log0: seq<LogRow>, n: nat)
    requires s.pool != [] && n <= |s.recipients| && s.rotation == RoundRobin && Unlimited(s.pool)
    ensures var r := Run(s, log0, n);
      |r.mails| == n && EveryRow(r.log[|log0|..], InTurn(s.pool))
    decreases n
  {
    if n == 0 {
      assert Run(s, log0, n).log[|log0|..] == [];
    } else {
      UnlimitedRoundRobin(s, log0, n - 1);
      var st := Run(s, log0, n - 1);
      var r := After(s, log0, n - 1);
      assert Run(s, log0, n) == r;
      RoundRobinAt(s, log0, n - 1);
      assert EveryRow(st.log[|log0|..], InTurn(s.pool));
      assert |st.log| - |log0| == n - 1;
      EveryRowExtend(st.log, r.log, |log0|, InTurn(s.pool));
    }
  }

  // The bulk send

  /**
   * With one account per id in the pool, no bulk send lifts a limited
   * account's count of the day above its cap.
   */
  lemma CampaignQuotaCap(req: Request, store: seq<Account>, env: Env, day: Date, log0: seq<LogRow>)
    ensures var pool := SelectPool(store, req.smtpIds);
      OneAccountPerId(pool) ==> forall a :: a in pool && Limited(a) ==>
        CountOn(Campaign(req, store, env, day, day, log0).log, a.id, day) <= Max(CountOn(log0, a.id, day), a.dailyLimit.value)
  {
    var pool := SelectPool(store, req.smtpIds);
    if OneAccountPerId(pool) && |req.recipients| > 0 && Truthy(req.subject) && Truthy(req.message) && pool != [] {
      var s := Prepare(req, pool, env, day, day);
      var limit := ProcessLimit(|req.recipients|, req.testMode);
      assert Campaign(req, store, env, day, day, log0).log == Run(s, log0, limit).log;
      forall a | a in pool && Limited(a)
        ensures CountOn(Run(s, log0, limit).log, a.id, day) <= Max(CountOn(log0, a.id, day), a.dailyLimit.value)
      {
        RunQuotaCap(s, log0, limit, a);
      }
    }
  }

  /**
   * `process_bulk_send` with the daily count taken for the day the rows are
   * stamped with, so each row a run writes is seen by the quota checks
   * after it, and no limited account ends the run above its limit.
   */
  function BulkSend(req: Request, store: seq<Account>, env: Env, log0: seq<LogRow>): (r: Report)
    ensures var pool := SelectPool(store, req.smtpIds);
      OneAccountPerId(pool) ==> forall a :: a in pool && Limited(a) ==>
        CountOn(r.log, a.id, env.clock.siteDay) <= Max(CountOn(log0, a.id, env.clock.siteDay), a.dailyLimit.value)
  {
    CampaignQuotaCap(req, store, env, env.clock.siteDay, log0);
    Campaign(req, store, env, env.clock.siteDay, env.clock.siteDay, log0)
  }

  /**
   * `process_bulk_send` as written: rows are stamped with the site-local
   * day, but the quota query counts rows of the UTC day. When the two days
   * agree it is the bulk send above.
   */
  function BulkSendAsWritten(req: Request, store: seq<Account>, env: Env, log0: seq<LogRow>): (r: Report)
    ensures env.clock.siteDay == env.clock.utcDay ==> r == BulkSend(req, store, env, log0)
  {
    Campaign(req, store, env, env.clock.siteDay, env.clock.utcDay, log0)
  }

  /**
   * One iteration through the lone account `a` with the stamp day and the
   * counted day apart: the account is still under its limit on the counted
   * day, takes the recipient, and the row counts only for the stamp day.
   */
  lemma MismatchStep(s: Setup, st: State, i: nat, a: Account)
    requires s.pool == [a] && i < |s.recipients| && s.stamp != s.today
    requires !Exhausted(st.log, a, s.today)
    ensures var r := Step(s, st, i);
      && CountOn(r.log, a.id, s.today) == CountOn(st.log, a.id, s.today)
      && CountOn(r.log, a.id, s.stamp) == CountOn(st.log, a.id, s.stamp) + 1
  {
    var r := Step(s, st, i);
    StepOutcome(s, st, i);
    assert Candidate(s.pool, i, s.rotation, s.draws, 0) == a;
    assert Assign(s.pool, i, s.rotation, s.draws, st.log, s.today).Some?;
    CountExtend(st.log, r.log, a.id, s.today);
    CountExtend(st.log, r.log, a.id, s.stamp);
  }

  /** The mismatched step, stated on iteration `i` of a run. */
  lemma MismatchAt(s: Setup, log0: seq<LogRow>, i: nat, a: Account)
    requires s.pool == [a] && i < |s.recipients| && s.stamp != s.today
    requires !Exhausted(Run(s, log0, i).log, a, s.today)
    ensures var st := Run(s, log0, i); var r := After(s, log0, i);
      && CountOn(r.log, a.id, s.today) == CountOn(st.log, a.id, s.today)
      && CountOn(r.log, a.id, s.stamp) == CountOn(st.log, a.id, s.stamp) + 1
  {
    MismatchStep(s, Run(s, log0, i), i, a);
  }

  /**
   * With the stamp day and the counted day apart, the rows a run writes
   * never count for the day the quota reads, so a lone account that starts
   * under its limit takes every recipient.
   */
  lemma {:induction false} MismatchedDaysNeverExhaust(s: Setup, log0: seq<LogRow>, n: nat, a: Account)
    requires s.pool == [a] && n <= |s.recipients| && s.stamp != s.today
    requires !Exhausted(log0, a, s.today)
    ensures var r := Run(s, log0, n);
      && CountOn(r.log, a.id, s.today) == CountOn(log0, a.id, s.today)
      && CountOn(r.log, a.id, s.stamp) == CountOn(log0, a.id, s.stamp) + n
    decreases n
  {
    if n > 0 {
      MismatchedDaysNeverExhaust(s, log0, n - 1, a);
      MismatchAt(s, log0, n - 1, a);
    }
  }

  /**
   * The input that shows the date mismatch: a pool of one limited account
   * with room left on the UTC day, a site day that differs from it, and
   * more recipients than the limit. Every recipient goes through the
   * account, which ends its site day with more rows than its limit allows,
   * however the transport answers.
   */
  lemma DateMismatchExceedsLimit(req: Request, store: seq<Account>, a: Account, env: Env, log0: seq<LogRow>)
    requires SelectPool(store, req.smtpIds) == [a]
    requires Truthy(req.subject) && Truthy(req.message) && !req.testMode
    requires env.clock.siteDay != env.clock.utcDay
    requires Limited(a) && !Exhausted(log0, a, env.clock.utcDay)
    requires CountOn(log0, a.id, env.clock.siteDay) == 0 && |req.recipients| > a.dailyLimit.value
    ensures var r := BulkSendAsWritten(req, store, env, log0);
      CountOn(r.log, a.id, env.clock.siteDay) == |req.recipients| > a.dailyLimit.value
  {
    var s := Prepare(req, [a], env, env.clock.siteDay, env.clock.utcDay);
    var n := |req.recipients|;
    assert ProcessLimit(n, req.testMode) == n;
    assert BulkSendAsWritten(req, store, env, log0).log == Run(s, log0, n).log;
    MismatchedDaysNeverExhaust(s, log0, n, a);
  }
}

=== FILE: quota.dfy ===
/**
 * The daily-limit check and the fallback search that `process_bulk_send`
 * runs before each send.
 */
module Quota {
  import opened Options
  import opened Accounts
  import opened MailLog

  /** `!empty($acc['daily_limit'])`: a limit is set and is not zero. */
  predicate Limited(a: Account) {
    a.dailyLimit.Some? && a.dailyLimit.value != 0
  }

  /** The account has a limit and today's rows charged to it have reached it. */
  predicate Exhausted(log: seq<LogRow>, a: Account, today: Date) {
    Limited(a) && CountOn(log, a.id, today) >= a.dailyLimit.value
  }

  /** The random draws of one run: the draw for recipient `i` at probe `t` (probe 0 is the first pick). */
  type Draws = (nat, nat) -> nat

  /** The account probe `t` considers for recipient `i`: `pick_smtp($pool, $i + t, $rotation)`. */
  function Candidate(pool: seq<Account>, i: nat, mode: Rotation, draws: Draws, t: nat): (a: Account)
    requires pool != []
    ensures a in pool
  {
    Pick(pool, i + t, mode, draws(i, t)).value
  }

  /**
   * The probes from `t` on: probe 0 is the first pick and probes 1 to
   * `|pool|` are the fallback `while` loop; the first whose account has no
   * limit or is under it wins, and `None` means every probe was exhausted.
   */
  function Search(pool: seq<Account>, i: nat, mode: Rotation, draws: Draws, log: seq<LogRow>, today: Date, t: nat)
    : (r: Option<nat>)
    requires pool != [] && t <= |pool| + 1
    ensures r.Some? ==> t <= r.value <= |pool| && !Exhausted(log, Candidate(pool, i, mode, draws, r.value), today)
    ensures forall u :: t <= u <= |pool| && (r.None? || u < r.value) ==> Exhausted(log, Candidate(pool, i, mode, draws, u), today)
    decreases |pool| + 1 - t
  {
    if t > |pool| then None
    else
      var c := Candidate(pool, i, mode, draws, t);
      if !Limited(c) then Some(t)
      else if CountOn(log, c.id, today) < c.dailyLimit.value then Some(t)
      else Search(pool, i, mode, draws, log, today, t + 1)
  }

  /** The account that gets recipient `i`, if any: always a pool member within its limit. */
  function Assign(pool: seq<Account>, i: nat, mode: Rotation, draws: Draws, log: seq<LogRow>, today: Date)
    : (r: Option<Account>)
    requires pool != []
    ensures r.Some? ==> r.value in pool && !Exhausted(log, r.value, today)
    ensures r.None? ==> forall u :: 0 <= u <= |pool| ==> Exhausted(log, Candidate(pool, i, mode, draws, u), today)
    ensures r.Some? ==> exists u :: 0 <= u <= |pool| && r.value == Candidate(pool, i, mode, draws, u)
                                    && forall v :: 0 <= v < u ==> Exhausted(log, Candidate(pool, i, mode, draws, v), today)
    ensures !Exhausted(log, Candidate(pool, i, mode, draws, 0), today) ==> r == Some(Candidate(pool, i, mode, draws, 0))
  {
    match Search(pool, i, mode, draws, log, today, 0)
    case Some(u) => Some(Candidate(pool, i, mode, draws, u))
    case None => None
  }
}

=== FILE: text.dfy ===
/**
 * String helpers of the bulk mailer: PHP's notion of a "falsy" string,
 * `trim`, splitting a text area into lines, `parse_headers`, and the
 * `Name <email>` formatting used for the `From` header and the `To` address.
 */
module Text {
  import opened Options

  /** PHP treats exactly the strings "" and "0" as false in a boolean context. */
  predicate Truthy(s: string) {
    s != "" && s != "0"
  }

  /** The characters PHP's `trim` strips by default. */
  predicate IsSpace(c: char) {
    c == ' ' || c == '\t' || c == '\n' || c == '\r' || c == '\U{0}' || c == '\U{B}'
  }

  ghost predicate AllSpace(s: string) {
    forall k :: 0 <= k < |s| ==> IsSpace(s[k])
  }

  /** Neither end of `s` is a space character. */
  predicate IsTrimmed(s: string) {
    s == [] || (!IsSpace(s[0]) && !IsSpace(s[|s| - 1]))
  }

  /** Length of the run of space characters that starts `s`. */
  function LeadingSpaces(s: string): (n: nat)
    ensures n <= |s|
    ensures forall k :: 0 <= k < n ==> IsSpace(s[k])
    ensures n < |s| ==> !IsSpace(s[n])
  {
    if |s| > 0 && IsSpace(s[0]) then 1 + LeadingSpaces(s[1..]) else 0
  }

  /** Length of the run of space characters that ends `s`. */
  function TrailingSpaces(s: string): (n: nat)
    ensures n <= |s|
    ensures forall k :: |s| - n <= k < |s| ==> IsSpace(s[k])
    ensures n < |s| ==> !IsSpace(s[|s| - n - 1])
  {
    if |s| > 0 && IsSpace(s[|s| - 1]) then 1 + TrailingSpaces(s[..|s| - 1]) else 0
  }

  /** The leading-space count is the first index holding a non-space character. */
  lemma LeadingSpacesUnique(s: string, n: nat)
    requires n <= |s|
    requires forall k :: 0 <= k < n ==> IsSpace(s[k])
    requires n < |s| ==> !IsSpace(s[n])
    ensures LeadingSpaces(s) == n
  {
  }

  /** The trailing-space count is fixed by the last non-space character. */
  lemma TrailingSpacesUnique(s: string, n: nat)
    requires n <= |s|
    requires forall k :: |s| - n <= k < |s| ==> IsSpace(s[k])
    requires n < |s| ==> !IsSpace(s[|s| - n - 1])
    ensures TrailingSpaces(s) == n
  {
  }

  /** PHP `trim`: drop the space characters at both ends. */
  function Trim(s: string): (r: string)
    ensures IsTrimmed(r)
    ensures |r| <= |s|
  {
    var lo := LeadingSpaces(s);
    var rest := s[lo..];
    rest[..|rest| - TrailingSpaces(rest)]
  }

  /** What `Trim` removed is space on both sides: `s` is the result padded with spaces. */
  lemma TrimFrames(s: string)
    ensures exists pre, post :: AllSpace(pre) && AllSpace(post) && s == pre + Trim(s) + post
  {
    var pre, post := TrimPadding(s);
  }

  /** The space `Trim` removes from the front and from the back of `s`. */
  lemma TrimPadding(s: string) returns (pre: string, post: string)
    ensures AllSpace(pre) && AllSpace(post) && s == pre + Trim(s) + post
  {
    var lo := LeadingSpaces(s);
    var rest := s[lo..];
    var cut := |rest| - TrailingSpaces(rest);
    pre, post := s[..lo], rest[cut..];
    assert AllSpace(post) by {
      forall k | 0 <= k < |post|
        ensures IsSpace(post[k])
      {
        assert post[k] == rest[cut + k];
      }
    }
    assert s == pre + Trim(s) + post;
  }

  /** Trimming a padded trimmed string gives back exactly that string. */
  lemma TrimPadded(pre: string, t: string, post: string)
    requires AllSpace(pre) && AllSpace(post) && IsTrimmed(t)
    ensures Trim(pre + t + post) == t
  {
    var s := pre + t + post;
    if t == [] {
      LeadingSpacesUnique(s, |s|);
    } else {
      LeadingSpacesUnique(s, |pre|);
      var rest := s[|pre|..];
      assert rest == t + post;
      TrailingSpacesUnique(rest, |post|);
      assert s[|pre|..|pre| + |t|] == t;
    }
  }

  /** Trimming twice is trimming once. */
  lemma TrimIdempotent(s: string)
    ensures Trim(Trim(s)) == Trim(s)
  {
    TrimPadded([], Trim(s), []);
    assert [] + Trim(s) + [] == Trim(s);
  }

  /** Space followed by space is space. */
  lemma AllSpaceConcat(a: string, b: string)
    requires AllSpace(a) && AllSpace(b)
    ensures AllSpace(a + b)
  {
    forall k | 0 <= k < |a + b|
      ensures IsSpace((a + b)[k])
    {
      if k < |a| {
        assert (a + b)[k] == a[k];
      } else {
        assert (a + b)[k] == b[k - |a|];
      }
    }
  }

  /** Space in front of a text does not survive the trim. */
  lemma TrimSpacePrefix(sp: string, s: string)
    requires AllSpace(sp)
    ensures Trim(sp + s) == Trim(s)
  {
    var pre, post := TrimPadding(s);
    AllSpaceConcat(sp, pre);
    var padded := (sp + pre) + Trim(s) + post;
    assert padded == sp + s;
    TrimPadded(sp + pre, Trim(s), post);
  }

  /** Space after a text does not survive the trim. */
  lemma TrimSpaceSuffix(s: string, sp: string)
    requires AllSpace(sp)
    ensures Trim(s + sp) == Trim(s)
  {
    var pre, post := TrimPadding(s);
    AllSpaceConcat(post, sp);
    var padded := pre + Trim(s) + (post + sp);
    assert padded == s + sp;
    TrimPadded(pre, Trim(s), post + sp);
  }

  /* ---------------- Lines ---------------- */

  /** Index of the first line feed in `s`, or `|s|` when there is none. */
  function LineEnd(s: string): (k: nat)
    ensures k <= |s|
    ensures '\n' !in s[..k]
    ensures k < |s| ==> s[k] == '\n'
  {
    if |s| == 0 || s[0] == '\n' then 0
    else
      var k := 1 + LineEnd(s[1..]);
      assert s[..k] == [s[0]] + s[1..][..k - 1];
      k
  }

  /** The line end is the first line feed. */
  lemma LineEndUnique(s: string, n: nat)
    requires n <= |s|
    requires '\n' !in s[..n]
    requires n < |s| ==> s[n] == '\n'
    ensures LineEnd(s) == n
  {
  }

  /** Glue lines back together with line feeds (the inverse of `SplitLines`). */
  function JoinLines(lines: seq<string>): string
  {
    if |lines| == 0 then ""
    else if |lines| == 1 then lines[0]
    else lines[0] + "\n" + JoinLines(lines[1..])
  }

  /**
   * Split a text on line feeds. PHP splits on `\r?\n`; a carriage return
   * left at the end of a piece here is removed by the per-line `trim` that
   * every caller applies, so the two splits give the same trimmed lines.
   */
  function SplitLines(s: string): (lines: seq<string>)
    ensures |lines| >= 1
    ensures forall k :: 0 <= k < |lines| ==> '\n' !in lines[k]
    ensures JoinLines(lines) == s
    decreases |s|
  {
    var k := LineEnd(s);
    if k == |s| then
      assert s[..k] == s;
      [s]
    else
      var rest := SplitLines(s[k + 1..]);
      assert s == s[..k] + "\n" + s[k + 1..];
      [s[..k]] + rest
  }

  /** Splitting joined newline-free lines gives the lines back. */
  lemma {:induction false} SplitJoin(lines: seq<string>)
    requires |lines| >= 1
    requires forall k :: 0 <= k < |lines| ==> '\n' !in lines[k]
    ensures SplitLines(JoinLines(lines)) == lines
    decreases |lines|
  {
    var s := JoinLines(lines);
    if |lines| == 1 {
      assert LineEnd(s) == |s|;
    } else {
      var tail := JoinLines(lines[1..]);
      assert s == lines[0] + "\n" + tail;
      assert s[..|lines[0]|] == lines[0];
      LineEndUnique(s, |lines[0]|);
      assert s[|lines[0]| + 1..] == tail;
      assert s[..|lines[0]|] == lines[0];
      SplitJoin(lines[1..]);
    }
  }

  /** The line lists `a` and `b` joined at the seam: the last line of `a` runs on into the first of `b`. */
  function Glue(a: seq<string>, b: seq<string>): seq<string>
    requires |a| >= 1 && |b| >= 1
  {
    a[..|a| - 1] + [a[|a| - 1] + b[0]] + b[1..]
  }

  /** Joining glued lists is joining each list and concatenating. */
  lemma {:induction false} JoinGlue(a: seq<string>, b: seq<string>)
    requires |a| >= 1 && |b| >= 1
    ensures JoinLines(Glue(a, b)) == JoinLines(a) + JoinLines(b)
    decreases |a|
  {
    var g := Glue(a, b);
    if |a| == 1 {
      assert g == [a[0] + b[0]] + b[1..];
      if |b| > 1 {
        assert g[0] == a[0] + b[0] && g[1..] == b[1..];
      }
    } else {
      JoinGlue(a[1..], b);
      assert g[0] == a[0] && g[1..] == Glue(a[1..], b);
    }
  }

  /** Gluing lists of one-line pieces gives one-line pieces. */
  lemma GlueNoBreak(a: seq<string>, b: seq<string>)
    requires |a| >= 1 && |b| >= 1
    requires forall k :: 0 <= k < |a| ==> '\n' !in a[k]
    requires forall k :: 0 <= k < |b| ==> '\n' !in b[k]
    ensures forall k :: 0 <= k < |Glue(a, b)| ==> '\n' !in Glue(a, b)[k]
  {
    var g := Glue(a, b);
    var n := |a| - 1;
    forall k | 0 <= k < |g|
      ensures '\n' !in g[k]
    {
      if k < n {
        assert g[k] == a[k];
      } else if k == n {
        var seam := a[n] + b[0];
        assert g[k] == seam;
        assert forall j :: 0 <= j < |seam| ==> seam[j] != '\n' by {
          forall j | 0 <= j < |seam|
            ensures seam[j] != '\n'
          {
            if j < |a[n]| {
              assert seam[j] == a[n][j] && a[n][j] in a[n];
            } else {
              assert seam[j] == b[0][j - |a[n]|] && b[0][j - |a[n]|] in b[0];
            }
          }
        }
      } else {
        assert g[k] == b[k - n];
      }
    }
  }

  /** The lines of a concatenation are the lines of its two parts, glued at the seam. */
  lemma SplitConcat(a: string, b: string)
    ensures SplitLines(a + b) == Glue(SplitLines(a), SplitLines(b))
  {
    var la, lb := SplitLines(a), SplitLines(b);
    var g := Glue(la, lb);
    JoinGlue(la, lb);
    GlueNoBreak(la, lb);
    SplitJoin(g);
  }

  /** Every line of a text made only of space characters is made only of them. */
  lemma {:induction false} SplitLinesOfSpace(s: string)
    requires AllSpace(s)
    ensures forall k :: 0 <= k < |SplitLines(s)| ==> AllSpace(SplitLines(s)[k])
    decreases |s|
  {
    var k := LineEnd(s);
    if k < |s| {
      var rest := s[k + 1..];
      assert AllSpace(rest) by {
        forall j | 0 <= j < |rest|
          ensures IsSpace(rest[j])
        {
          assert rest[j] == s[k + 1 + j];
        }
      }
      SplitLinesOfSpace(rest);
      assert AllSpace(s[..k]) by {
        forall j | 0 <= j < k
          ensures IsSpace(s[..k][j])
        {
          assert s[..k][j] == s[j];
        }
      }
      var lines := SplitLines(s);
      assert lines == [s[..k]] + SplitLines(rest);
      forall j | 0 <= j < |lines|
        ensures AllSpace(lines[j])
      {
        if j > 0 {
          assert lines[j] == SplitLines(rest)[j - 1];
        }
      }
    }
  }

  /* ---------------- parse_headers ---------------- */

  /**
   * The trimmed lines of `lines` that PHP would treat as true, in order: a
   * line is kept exactly when its trim is neither empty nor "0", and then
   * as its trim.
   */
  function KeepHeaderLines(lines: seq<string>): (r: seq<string>)
    ensures |r| <= |lines|
    ensures forall k :: 0 <= k < |r| ==> IsTrimmed(r[k]) && Truthy(r[k])
  {
    if lines == [] then []
    else
      var l := Trim(lines[0]);
      (if Truthy(l) then [l] else []) + KeepHeaderLines(lines[1..])
  }

  /** Filtering line lists piece by piece keeps their relative order. */
  lemma {:induction false} KeepHeaderLinesAppend(a: seq<string>, b: seq<string>)
    ensures KeepHeaderLines(a + b) == KeepHeaderLines(a) + KeepHeaderLines(b)
    decreases |a|
  {
    if a == [] {
      assert a + b == b;
    } else {
      var l := Trim(a[0]);
      var head := if Truthy(l) then [l] else [];
      assert (a + b)[0] == a[0];
      assert (a + b)[1..] == a[1..] + b;
      assert KeepHeaderLines(a + b) == head + KeepHeaderLines(a[1..] + b);
      KeepHeaderLinesAppend(a[1..], b);
      assert KeepHeaderLines(a) == head + KeepHeaderLines(a[1..]);
    }
  }

  /**
   * A header is kept exactly when some line trims to it and it is neither
   * empty nor "0".
   */
  lemma {:induction false} KeepHeaderLinesMembers(lines: seq<string>, h: string)
    ensures h in KeepHeaderLines(lines) <==> exists l :: l in lines && h == Trim(l) && Truthy(h)
    decreases |lines|
  {
    if lines != [] {
      var t := Trim(lines[0]);
      var head := if Truthy(t) then [t] else [];
      var rest := lines[1..];
      assert KeepHeaderLines(lines) == head + KeepHeaderLines(rest);
      KeepHeaderLinesMembers(rest, h);
      if h in KeepHeaderLines(lines) {
        if h in head {
          assert lines[0] in lines && h == Trim(lines[0]) && Truthy(h);
        } else {
          var l :| l in rest && h == Trim(l) && Truthy(h);
          assert l in lines;
        }
      }
      if exists l :: l in lines && h == Trim(l) && Truthy(h) {
        var l :| l in lines && h == Trim(l) && Truthy(h);
        if l != lines[0] {
          assert l in rest;
        }
      }
    }
  }

  /** Lines made only of space characters are all dropped. */
  lemma {:induction false} KeepHeaderLinesBlank(lines: seq<string>)
    requires forall k :: 0 <= k < |lines| ==> AllSpace(lines[k])
    ensures KeepHeaderLines(lines) == []
    decreases |lines|
  {
    if lines != [] {
      TrimSpacePrefix(lines[0], "");
      assert lines[0] + "" == lines[0];
      assert KeepHeaderLines(lines) == KeepHeaderLines(lines[1..]);
      KeepHeaderLinesBlank(lines[1..]);
    }
  }

  /** In a non-empty list of blank lines, the first and last are blank and the filter drops the rest. */
  lemma BlankLinesParts(blank: seq<string>)
    requires |blank| >= 1
    requires forall k :: 0 <= k < |blank| ==> AllSpace(blank[k])
    ensures AllSpace(blank[0]) && KeepHeaderLines(blank[1..]) == []
    ensures AllSpace(blank[|blank| - 1]) && KeepHeaderLines(blank[..|blank| - 1]) == []
  {
    var back, front := blank[1..], blank[..|blank| - 1];
    assert forall k :: 0 <= k < |back| ==> back[k] == blank[k + 1];
    KeepHeaderLinesBlank(back);
    assert forall k :: 0 <= k < |front| ==> front[k] == blank[k];
    KeepHeaderLinesBlank(front);
  }

  /** The two ways of bracketing a glued list. */
  lemma GlueShape(a: seq<string>, b: seq<string>)
    requires |a| >= 1 && |b| >= 1
    ensures Glue(a, b) == a[..|a| - 1] + ([a[|a| - 1] + b[0]] + b[1..])
    ensures Glue(a, b) == (a[..|a| - 1] + [a[|a| - 1] + b[0]]) + b[1..]
  {
  }

  lemma LastSplit<T>(s: seq<T>)
    requires |s| >= 1
    ensures s == s[..|s| - 1] + [s[|s| - 1]]
  {
  }

  /** Lines the filter drops entirely can be removed from either end. */
  lemma KeepDropFront(front: seq<string>, rest: seq<string>)
    requires KeepHeaderLines(front) == []
    ensures KeepHeaderLines(front + rest) == KeepHeaderLines(rest)
  {
    KeepHeaderLinesAppend(front, rest);
  }

  lemma KeepDropBack(rest: seq<string>, back: seq<string>)
    requires KeepHeaderLines(back) == []
    ensures KeepHeaderLines(rest + back) == KeepHeaderLines(rest)
  {
    KeepHeaderLinesAppend(rest, back);
  }

  /** Replacing the first or last line by one with the same trim leaves the kept lines alone. */
  lemma KeepSwapFirst(u: string, ls: seq<string>)
    requires |ls| >= 1 && Trim(u) == Trim(ls[0])
    ensures KeepHeaderLines([u] + ls[1..]) == KeepHeaderLines(ls)
  {
    assert ([u] + ls[1..])[0] == u;
    assert ([u] + ls[1..])[1..] == ls[1..];
  }

  lemma KeepSwapLast(front: seq<string>, u: string, v: string)
    requires Trim(u) == Trim(v)
    ensures KeepHeaderLines(front + [u]) == KeepHeaderLines(front + [v])
  {
    KeepHeaderLinesAppend(front, [u]);
    KeepHeaderLinesAppend(front, [v]);
    KeepHeaderLineSame(u, v);
  }

  /** Two lines with the same trim are kept or dropped alike. */
  lemma KeepHeaderLineSame(u: string, v: string)
    requires Trim(u) == Trim(v)
    ensures KeepHeaderLines([u]) == KeepHeaderLines([v])
  {
    assert [u][1..] == [] && [v][1..] == [];
  }

  /** Blank lines glued in front of a list, the last running into its first line, are dropped by the filter. */
  lemma KeepGlueBlankFront(blank: seq<string>, ls: seq<string>)
    requires |blank| >= 1 && |ls| >= 1
    requires KeepHeaderLines(blank[..|blank| - 1]) == [] && AllSpace(blank[|blank| - 1])
    ensures KeepHeaderLines(Glue(blank, ls)) == KeepHeaderLines(ls)
  {
    var front := blank[..|blank| - 1];
    var last := blank[|blank| - 1];
    var seam := last + ls[0];
    GlueShape(blank, ls);
    KeepDropFront(front, [seam] + ls[1..]);
    TrimSpacePrefix(last, ls[0]);
    KeepSwapFirst(seam, ls);
  }

  /** Blank lines glued after a list, the first running on from its last line, are dropped by the filter. */
  lemma KeepGlueBlankBack(ls: seq<string>, blank: seq<string>)
    requires |ls| >= 1 && |blank| >= 1
    requires AllSpace(blank[0]) && KeepHeaderLines(blank[1..]) == []
    ensures KeepHeaderLines(Glue(ls, blank)) == KeepHeaderLines(ls)
  {
    var front := ls[..|ls| - 1];
    var last := ls[|ls| - 1];
    var seam := last + blank[0];
    GlueShape(ls, blank);
    KeepDropBack(front + [seam], blank[1..]);
    TrimSpaceSuffix(last, blank[0]);
    KeepSwapLast(front, seam, last);
    LastSplit(ls);
  }

  /** Space in front of a text adds only blank lines and leading space, which the filter drops. */
  lemma KeepSplitSpacePrefix(sp: string, s: string)
    requires AllSpace(sp)
    ensures KeepHeaderLines(SplitLines(sp + s)) == KeepHeaderLines(SplitLines(s))
  {
    var blank := SplitLines(sp);
    SplitConcat(sp, s);
    SplitLinesOfSpace(sp);
    BlankLinesParts(blank);
    KeepGlueBlankFront(blank, SplitLines(s));
  }

  /** Space after a text adds only blank lines and trailing space, which the filter drops. */
  lemma KeepSplitSpaceSuffix(s: string, sp: string)
    requires AllSpace(sp)
    ensures KeepHeaderLines(SplitLines(s + sp)) == KeepHeaderLines(SplitLines(s))
  {
    var blank := SplitLines(sp);
    SplitConcat(s, sp);
    SplitLinesOfSpace(sp);
    BlankLinesParts(blank);
    KeepGlueBlankBack(SplitLines(s), blank);
  }

  lemma ConcatAssoc<T>(a: seq<T>, b: seq<T>, c: seq<T>)
    ensures a + b + c == a + (b + c)
  {
  }

  /**
   * The outer `trim` of `parse_headers` changes nothing: the space it
   * removes would be dropped line by line anyway.
   */
  lemma ParseHeadersOuterTrim(text: string)
    ensures KeepHeaderLines(SplitLines(Trim(text))) == KeepHeaderLines(SplitLines(text))
  {
    var pre, post := TrimPadding(text);
    var t := Trim(text);
    var mid := t + post;
    ConcatAssoc(pre, t, post);
    KeepSplitSpacePrefix(pre, mid);
    KeepSplitSpaceSuffix(t, post);
  }

  /**
   * `parse_headers` keeps exactly the lines of the text whose trim is
   * neither empty nor "0", as that trim.
   */
  lemma ParseHeadersMembers(text: string, h: string)
    ensures h in ParseHeaders(text) <==> exists l :: l in SplitLines(text) && h == Trim(l) && Truthy(h)
  {
    KeepHeaderLinesMembers(SplitLines(text), h);
  }

  /** A header line the parser accepts unchanged: trimmed, true, one line. */
  predicate IsHeaderLine(h: string) {
    IsTrimmed(h) && Truthy(h) && '\n' !in h
  }

  /**
   * `parse_headers`: the trimmed lines of the text area that are neither
   * empty nor "0", in their original order.
   */
  function ParseHeaders(text: string): (hs: seq<string>)
    ensures forall k :: 0 <= k < |hs| ==> IsHeaderLine(hs[k])
    ensures hs == KeepHeaderLines(SplitLines(text))
  {
    ParseHeadersOuterTrim(text);
    var lines := SplitLines(Trim(text));
    var hs := KeepHeaderLines(lines);
    assert forall k :: 0 <= k < |hs| ==> '\n' !in hs[k] by {
      KeepHeaderLinesNoBreak(lines);
    }
    hs
  }

  lemma {:induction false} KeepHeaderLinesNoBreak(lines: seq<string>)
    requires forall k :: 0 <= k < |lines| ==> '\n' !in lines[k]
    ensures forall k :: 0 <= k < |KeepHeaderLines(lines)| ==> '\n' !in KeepHeaderLines(lines)[k]
    decreases |lines|
  {
    if lines != [] {
      var l := Trim(lines[0]);
      assert '\n' !in l;
      KeepHeaderLinesNoBreak(lines[1..]);
    }
  }

  /** Lines that are already header lines pass the filter unchanged. */
  lemma {:induction false} KeepHeaderLinesIdentity(hs: seq<string>)
    requires forall k :: 0 <= k < |hs| ==> IsHeaderLine(hs[k])
    ensures KeepHeaderLines(hs) == hs
    decreases |hs|
  {
    if hs != [] {
      TrimPadded([], hs[0], []);
      assert [] + hs[0] + [] == hs[0];
      KeepHeaderLinesIdentity(hs[1..]);
    }
  }

  /** Parsing the text that lists some header lines one per line yields those lines. */
  lemma {:induction false} ParseHeadersRoundTrip(hs: seq<string>)
    requires forall k :: 0 <= k < |hs| ==> IsHeaderLine(hs[k])
    ensures ParseHeaders(JoinLines(hs)) == hs
  {
    var text := JoinLines(hs);
    if hs == [] {
      TrimTrimmed("");
      assert SplitLines("") == [""];
      assert KeepHeaderLines([""]) == [];
    } else {
      assert forall k :: 0 <= k < |hs| ==> IsHeaderLine(hs[k]) && |hs[k]| > 0 by {
        forall k | 0 <= k < |hs| ensures |hs[k]| > 0 {
          assert Truthy(hs[k]);
        }
      }
      JoinLinesTrimmed(hs);
      TrimTrimmed(text);
      SplitJoin(hs);
      assert SplitLines(Trim(text)) == hs;
      KeepHeaderLinesIdentity(hs);
    }
  }

  /** A trimmed string is its own trim. */
  lemma TrimTrimmed(t: string)
    requires IsTrimmed(t)
    ensures Trim(t) == t
  {
    TrimPadded([], t, []);
    assert [] + t + [] == t;
  }

  lemma {:induction false} JoinLinesTrimmed(hs: seq<string>)
    requires |hs| >= 1
    requires forall k :: 0 <= k < |hs| ==> IsHeaderLine(hs[k]) && |hs[k]| > 0
    ensures IsTrimmed(JoinLines(hs)) && JoinLines(hs) != []
    ensures JoinLines(hs)[0] == hs[0][0]
    ensures JoinLines(hs)[|JoinLines(hs)| - 1] == hs[|hs| - 1][|hs[|hs| - 1]| - 1]
    decreases |hs|
  {
    if |hs| > 1 {
      JoinLinesTrimmed(hs[1..]);
    }
  }

  /* ---------------- Mailbox formatting ---------------- */

  /** An address without angle brackets, as every address `is_email` accepts is. */
  predicate NoAngles(s: string) {
    '<' !in s && '>' !in s
  }

  /** Position of the last occurrence of `c` in `s`. */
  function LastIndexOf(s: string, c: char): (r: Option<nat>)
    ensures r.None? <==> c !in s
    ensures r.Some? ==> r.value < |s| && s[r.value] == c && c !in s[r.value + 1..]
  {
    if |s| == 0 then None
    else if s[|s| - 1] == c then Some(|s| - 1)
    else
      var r := LastIndexOf(s[..|s| - 1], c);
      assert s == s[..|s| - 1] + [s[|s| - 1]];
      assert r.Some? ==> s[r.value + 1..] == s[..|s| - 1][r.value + 1..] + [s[|s| - 1]];
      r
  }

  lemma LastIndexUnique(s: string, c: char, n: nat)
    requires n < |s| && s[n] == c && c !in s[n + 1..]
    ensures LastIndexOf(s, c) == Some(n)
  {
  }

  /** Reads the address back out of a mailbox: the text between the last `<` and a final `>`, or all of it. */
  function AddressOf(m: string): string
  {
    if |m| > 0 && m[|m| - 1] == '>' then
      match LastIndexOf(m, '<')
      case Some(k) => m[k + 1..|m| - 1]
      case None => m
    else m
  }

  /** Reads the display name back out of a mailbox: what precedes ` <`, or nothing. */
  function DisplayNameOf(m: string): string
  {
    if |m| > 0 && m[|m| - 1] == '>' then
      match LastIndexOf(m, '<')
      case Some(k) => if k >= 1 && m[k - 1] == ' ' then m[..k - 1] else ""
      case None => ""
    else ""
  }

  /**
   * `Name <email>` when the name is true in PHP's sense, else the bare
   * address: the shape of both the `From` override and the `To` argument.
   */
  function Mailbox(name: string, email: string): string
  {
    if Truthy(name) then name + " <" + email + ">" else email
  }

  /** Both parts of a mailbox can be read back out of it. */
  lemma MailboxRoundTrip(name: string, email: string)
    requires NoAngles(email)
    ensures AddressOf(Mailbox(name, email)) == email
    ensures DisplayNameOf(Mailbox(name, email)) == (if Truthy(name) then name else "")
    ensures NoAngles(Mailbox(name, email)) <==> !Truthy(name)
  {
    if Truthy(name) {
      NamedMailboxRoundTrip(name, email);
      var m := name + " <" + email + ">";
      assert m[|name| + 1] == '<';
    } else {
      assert |email| > 0 ==> email[|email| - 1] in email;
    }
  }

  /** The `Name <email>` form: the address sits between the last `<` and the closing `>`, the name before ` <`. */
  lemma NamedMailboxRoundTrip(name: string, email: string)
    requires NoAngles(email)
    ensures var m := name + " <" + email + ">";
      AddressOf(m) == email && DisplayNameOf(m) == name
  {
    var m := name + " <" + email + ">";
    NamedMailboxOpen(name, email);
    assert m[|name| + 2..|m| - 1] == email;
    assert m[..|name|] == name;
  }

  /** In `Name <email>` the last `<` is the one after the name and its space, and the text ends in `>`. */
  lemma NamedMailboxOpen(name: string, email: string)
    requires NoAngles(email)
    ensures var m := name + " <" + email + ">";
      m[|m| - 1] == '>' && m[|name|] == ' ' && LastIndexOf(m, '<') == Some(|name| + 1)
  {
    var m := name + " <" + email + ">";
    var k := |name| + 1;
    assert m[k] == '<' && m[k - 1] == ' ' && m[|m| - 1] == '>';
    assert m[k + 1..] == email + ">";
    ClosedAddress(email);
    LastIndexUnique(m, '<', k);
  }


  lemma ClosedAddress(email: string)
    requires NoAngles(email)
    ensures '<' !in email + ">"
  {
    forall k | 0 <= k < |email| + 1
      ensures (email + ">")[k] != '<'
    {
      if k < |email| {
        assert (email + ">")[k] == email[k] && email[k] in email;
      }
    }
  }

  /**
   * A mailbox without angle brackets is read as a bare address: it is that
   * address, with no display name. So a bracket-free `From` or `To` value
   * that reads back `email` is `email` itself.
   */
  lemma BareMailbox(m: string, email: string)
    requires NoAngles(m) && AddressOf(m) == email
    ensures m == email && DisplayNameOf(m) == ""
  {
    assert |m| > 0 ==> m[|m| - 1] in m;
  }

  /** The `From` header line added when a sender address overrides the default. */
  function FromHeader(name: string, email: string): (h: string)
    ensures |h| >= 6 && h[..6] == "From: "
    ensures NoAngles(email) ==> AddressOf(h[6..]) == email
    ensures NoAngles(email) ==> DisplayNameOf(h[6..]) == (if Truthy(name) then name else "")
    ensures NoAngles(email) ==> (NoAngles(h[6..]) <==> !Truthy(name))
  {
    var h := "From: " + Mailbox(name, email);
    assert h[6..] == Mailbox(name, email);
    if NoAngles(email) then
      MailboxRoundTrip(name, email);
      h
    else
      h
  }
}
